=== FILE: README.md ===
# Agrodoc core, modelled in Dafny

Agrodoc is a browser app for crop diagnosis. A farmer photographs a plant.
The photo goes to a hosted vision model, which returns a structured
diagnosis: disease, confidence, symptoms, treatment, products and web
sources. A live voice session with an "expert" model can then follow.

This project models the logic of that app that does not depend on the UI:

- **The PCM/base64 bridge of the live assistant** (`components/LiveAssistant.tsx`):
  - base64 `encode`/`decode`, over the browser's `btoa`/`atob`;
  - `createBlob`: float samples to little-endian int16 with ECMAScript
    `ToInt16` wrap-around, then base64, tagged `audio/pcm;rate=16000`;
  - `decodeAudioData`: bytes to int16, de-interleaving and scaling by
    1/32768, with the error conditions of `Int16Array` and `createBuffer`.
- **The playback scheduler of the `onmessage` handler**: a cursor raised to
  the output clock, gapless back-to-back scheduling, the `ended` listener,
  and the `interrupted` flag.
- **The session lifecycle**:
  - the key guard and the order in which audio contexts, microphone and
    connection are acquired;
  - the connection configuration (voice, system instruction);
  - the callbacks, and `cleanup`.
- **The diagnosis service** (`geminiService.ts`):
  - the key guard;
  - the target language;
  - the image payload taken from a data URL;
  - the projection of grounding sources;
  - the remapping of errors to user-facing messages.
- **The app's state machine** (`App.tsx`): `processImage`, `reset`, the
  language toggle and `getExpertContext`.
- **The camera** (`components/CameraModule.tsx`):
  - `startCamera` with its fallback from the back camera to any camera;
  - the classification of its errors;
  - `stopStream` and the unmount cleanup.

The remote model, `JSON.parse`, `getUserMedia`, the microphone and the
output clock become parameters. `generated` is the result or error of
`generateContent`, `parse` stands for `JSON.parse`, `Devices` stands for
what `getUserMedia` yields, and `clock` stands for `currentTime`. JavaScript
errors are `JsError(name, message)`. An empty message stands for a falsy or
absent one, because every `err.message || fallback` in the code treats them
alike.

Modules:

| file | module | covers |
|---|---|---|
| outcomes.dfy | `Outcomes` | `Option`, `Result`, `JsError`, the `\|\|` fallback on strings |
| jstext.dfy | `JsText` | `trim`, `includes`, `split`, `join` on strings |
| base64.dfy | `Base64` | RFC 4648 encoding, WHATWG forgiving-base64 decoding, `btoa`/`atob`, `encode`/`decode` |
| pcm.dfy | `Pcm` | `ToInt16`, int16 little-endian layout, `createBlob`, `decodeAudioData` |
| playback.dfy | `Playback` | the `onmessage` scheduler and the `ended` listener |
| session.dfy | `LiveSession` | `startSession`, the connection callbacks, `cleanup` |
| types.dfy | `Types` | the records of `types.ts`, the language |
| gemini.dfy | `Gemini` | `diagnosePlant` |
| app.dfy | `AppFlow` | `processImage`, `reset`, `getExpertContext`, the language toggle |
| camera.dfy | `Camera` | `startCamera`, error classification, `stopStream`, unmount |

Behaviour of the code worth noting:

- `decodeAudioData` does not reject a byte count that is not a multiple of
  two bytes per channel. `frameCount` is fractional, and `createBuffer`
  truncates it, so the trailing values are dropped. An odd byte count fails
  with the `RangeError` of `Int16Array`; fewer values than channels leave
  zero frames and fail with the `NotSupportedError` of `createBuffer`.
  `Pcm.DecodeAudioData` models this.
- `App.tsx` calls `diagnosePlant(base64)` without a language, so diagnoses
  are always requested in English, whichever language the interface shows.
  `AppFlow.ProcessImage` states this.
- `createBlob` does not clamp. A sample of exactly 1.0 is stored as −32768,
  the most negative value (`Pcm.FullScaleWraps`).
- A chunk whose decode fails still raises the cursor to the clock, because
  the cursor is assigned before the decode. Its `interrupted` flag is then
  never looked at.
- The microphone callback is attached to the input context, so `cleanup`
  silences it by closing that context. `cleanup` does not close the live
  connection, so after a restart the old connection's `onopen` can still
  fire; it wires only its own, closed context. No frame is sent until the
  new connection's `onopen` wires the new context
  (`LiveSession.RestartSendsNothingBeforeOpen`).
- The old connection's `onmessage` can fire after a restart too. It reads
  the new output context from the ref and raises the cursor to that
  context's clock, but its audio is connected to the analyser of the old,
  closed context, which throws an InvalidAccessError: nothing is started
  and the interrupt flag of that message is skipped. An old message without
  audio but with the interrupt flag still stops the new playback, since the
  source set is shared (`LiveSession.StaleMessageStartsNothing`).
- `onerror` tears nothing down: a wired microphone keeps sending frames
  (`LiveSession.ErrorKeepsMicrophone`).
- Neither `cleanup` nor `startSession` resets the playback cursor
  (`nextStartTimeRef` is zeroed only by an interrupt). After a restart the
  new output context's clock starts again near 0, so the first chunk waits
  until the old cursor's time (`LiveSession.Cleanup` and
  `LiveSession.StartSession` keep the cursor).

## Model

| member | source | states |
|---|---|---|
| Outcomes.OrElse | App.tsx:43 | `a \|\| b` on strings: always one of the two operands, `a` whenever it is non-empty, and empty only when both are |
| JsText.TrimStart | components/LiveAssistant.tsx:94 | the result is a suffix of the input that starts with no ECMAScript white space, and everything removed was white space |
| JsText.TrimEnd | components/LiveAssistant.tsx:94 | the result is a prefix of the input that ends with no white space, and everything removed was white space |
| JsText.TrimEmptyIffBlank | components/LiveAssistant.tsx:94 | `trim() === ''` holds exactly when every character is white space |
| JsText.Includes | geminiService.ts:110 | `includes` holds exactly when the substring occurs at some position |
| JsText.NotIncludedWithoutChar | geminiService.ts:110 | a text that lacks one of the characters of the substring does not include it |
| JsText.NotIncludedWithoutPrefix | components/CameraModule.tsx:55 | a text that lacks a prefix of the substring does not include it |
| JsText.JoinContains | App.tsx:60 | every element of `xs.join(sep)` occurs in the joined text |
| JsText.IndexOf | geminiService.ts:76 | the first position of the character, or −1 exactly when it is absent |
| JsText.Split | geminiService.ts:76 | `split(c)` yields at least one field, and no field contains `c` |
| JsText.JoinSplit | geminiService.ts:76 | joining the fields of `split(c)` with `c` gives back the text |
| JsText.SplitJoin | geminiService.ts:76 | splitting a `c`-join of `c`-free fields gives back the fields |
| Base64.ValueOf | components/LiveAssistant.tsx:13-14 | the decoding table inverts the RFC 4648 alphabet on alphabet characters |
| Base64.GroupRoundTrip | components/LiveAssistant.tsx:24-31 | a 3-byte group encodes to 4 alphabet characters that decode back to it |
| Base64.Tail2RoundTrip | components/LiveAssistant.tsx:24-31 | a 2-byte tail encodes to 3 characters plus `=` and decodes back |
| Base64.Tail1RoundTrip | components/LiveAssistant.tsx:24-31 | a 1-byte tail encodes to 2 characters plus `==` and decodes back |
| Base64.EncodeRaw | components/LiveAssistant.tsx:24-31 | the unpadded encoding has ceil(4n/3) characters, all from the alphabet |
| Base64.RawRoundTrip | components/LiveAssistant.tsx:13-31 | decoding the unpadded encoding of any byte sequence gives it back |
| Base64.RemoveWhitespace | components/LiveAssistant.tsx:14 | removing ASCII white space leaves no white space and never lengthens the text |
| Base64.RemoveWhitespaceKeeps | components/LiveAssistant.tsx:14 | a character survives the removal exactly when it occurs in the input and is not white space |
| Base64.DecodedLength | components/LiveAssistant.tsx:14 | a successful decode yields at most three bytes per four input characters |
| Base64.EncodeBytes | components/LiveAssistant.tsx:30 | the padded encoding has length 4·ceil(n/3), uses only alphabet characters and `=`, and has `=` only in its last two positions |
| Base64.EncodeBytesShape | components/LiveAssistant.tsx:30 | the padded encoding is the digits followed by the padding, a whole number of four-character groups |
| Base64.StripPaddingOf | components/LiveAssistant.tsx:14 | one or two `=` after alphabet characters are exactly what the padding step drops |
| Base64.ForgivingDecodeEncode | components/LiveAssistant.tsx:13-31 | the forgiving decode of the padded encoding returns the bytes |
| Base64.CodeUnitsOfBinary | components/LiveAssistant.tsx:15-29 | reading back the code units of the binary string of some bytes gives those bytes |
| Base64.BinaryOfCodeUnits | components/LiveAssistant.tsx:15-29 | a string whose code units are all below 256 is the binary string of the bytes read from it |
| Base64.Btoa | components/LiveAssistant.tsx:30 | `btoa` succeeds exactly when every code unit is below 256; otherwise it throws |
| Base64.Encode | components/LiveAssistant.tsx:24-31 | `encode` never fails: it is the padded RFC 4648 encoding of the bytes, 4·ceil(n/3) characters from the alphabet and `=` |
| Base64.Decode | components/LiveAssistant.tsx:13-21 | `decode` fails exactly when the forgiving decode does |
| Base64.DecodeEncode | components/LiveAssistant.tsx:13-31 | `decode(encode(b)) == b` for every byte sequence |
| Base64.DecodeDiscardsTrailingBits | components/LiveAssistant.tsx:14 | `AB==` and `AA==` both decode to `[0]`: the unused low bits are ignored |
| Base64.DecodeIgnoresWhitespace | components/LiveAssistant.tsx:14 | `decode` gives the same outcome with the white space removed |
| Base64.DecodeRejectsForeignCharacter | components/LiveAssistant.tsx:14 | a character outside the alphabet that is neither white space nor `=` makes `decode` fail, wherever it stands |
| Base64.DecodeRejectsDanglingDigit | components/LiveAssistant.tsx:14 | a text whose length after white-space removal is 1 modulo 4 is rejected |
| Pcm.Truncate | components/LiveAssistant.tsx:58 | rounding toward zero: within one unit of the value, on the side of zero |
| Pcm.WrapInt16 | components/LiveAssistant.tsx:58 | the int16 value congruent to the integer modulo 2^16 |
| Pcm.FullScaleWraps | components/LiveAssistant.tsx:58 | the sample 1.0 is stored as −32768, not clamped to 32767 |
| Pcm.QuantizedSampleExact | components/LiveAssistant.tsx:58 | a sample k/32768 with k an int16 is stored as exactly k |
| Pcm.LittleEndianRoundTrip | components/LiveAssistant.tsx:61 | the two little-endian bytes of an int16 give it back |
| Pcm.Int16Bytes | components/LiveAssistant.tsx:61 | `Uint8Array(int16.buffer)` has 2n bytes, and value i is at 2i (low) and 2i+1 (high) |
| Pcm.Int16BytesOfValues | components/LiveAssistant.tsx:40 | viewing an even byte sequence as `Int16Array` and taking its bytes again gives the same bytes |
| Pcm.Int16RoundTrip | components/LiveAssistant.tsx:40-61 | viewing the bytes of int16 values as `Int16Array` gives the values back |
| Pcm.Quantize | components/LiveAssistant.tsx:55-59 | one int16 per sample, congruent modulo 2^16 to the truncation of sample × 32768 |
| Pcm.PcmBytes | components/LiveAssistant.tsx:55-61 | two bytes per sample: the little-endian bytes of its int16 |
| Pcm.CreateBlob | components/LiveAssistant.tsx:54-64 | the mime type is `audio/pcm;rate=16000`, and the data has 4·ceil(2n/3) characters |
| Pcm.CreateBlobDecodes | components/LiveAssistant.tsx:13-64 | the data of a blob decodes back to the PCM bytes of its samples |
| Pcm.DecodeAudioData | components/LiveAssistant.tsx:34-51 | succeeds exactly for an even byte count, 1 to 32 channels, a rate from 3000 to 768000 Hz and at least one whole frame; an odd count is the `RangeError`, every other failure the `NotSupportedError`; the buffer is well formed, with the requested rate and channels and a truncated frame count |
| Pcm.DecodedFrames | components/LiveAssistant.tsx:40-49 | frame i of channel c is int16 value i·channels+c scaled by 1/32768 |
| Pcm.MonoDecodeOk | components/LiveAssistant.tsx:34-51 | mono decoding succeeds exactly on an even, non-empty byte count, with one channel and one frame per two bytes |
| Pcm.MonoChannel | components/LiveAssistant.tsx:40-49 | the single channel of mono data is its int16 values scaled back by 1/32768 |
| Pcm.QuantizeDequantize | components/LiveAssistant.tsx:58 | samples k/32768 quantise back to exactly the k |
| Pcm.DecodedSamplesInRange | components/LiveAssistant.tsx:47 | every decoded sample lies in [−1, 1) |
| Pcm.PcmRoundTrip | components/LiveAssistant.tsx:34-64 | samples k/32768 survive quantisation and mono decoding unchanged |
| Pcm.BlobRoundTrip | components/LiveAssistant.tsx:13-64 | an outbound blob, base64-decoded and decoded as mono PCM, gives its samples back |
| Playback.DecodeChunk | components/LiveAssistant.tsx:151-156 | a decoded inbound chunk is a well-formed 24 kHz buffer |
| Playback.DecodeChunkOk | components/LiveAssistant.tsx:151-156 | a chunk decodes exactly when its base64 decodes to an even, non-empty byte count; it is then mono, with one frame per two bytes |
| Playback.ChunkOf | components/LiveAssistant.tsx:143-156 | an empty audio field is not decoded; otherwise the chunk is the decoded buffer exactly when decoding succeeds |
| Playback.Schedule | components/LiveAssistant.tsx:145-181 | a chunk starts at max(cursor, clock), never in the past, with a fresh id and its buffer's duration; it moves the cursor to its end and joins the set; a decode failure raises the cursor and aborts; an interruption stops every source (the new one too) and zeroes the cursor; a message with neither changes nothing |
| Playback.OnMessage | components/LiveAssistant.tsx:142-181 | a chunk starts exactly when the message carries audio that decodes, for the decoded duration; the handler fails exactly when decoding throws; a message with neither audio nor flag changes nothing |
| Playback.OnEnded | components/LiveAssistant.tsx:164-166 | `ended` removes its own source and nothing else |
| Playback.SchedulePreservesValid | components/LiveAssistant.tsx:145-181 | every outstanding source ends no later than the cursor, before and after each scheduling step |
| Playback.OnMessagePreservesValid | components/LiveAssistant.tsx:142-181 | every outstanding source ends no later than the cursor, before and after each message |
| Playback.OnEndedPreservesValid | components/LiveAssistant.tsx:164-166 | removing a finished source keeps that invariant |
| Playback.StartedAfterOutstanding | components/LiveAssistant.tsx:149-168 | a new chunk gets a fresh id and starts after every outstanding source ends |
| Playback.ConsecutiveChunks | components/LiveAssistant.tsx:149-169 | without an interruption, the next chunk starts at or after the previous end, and exactly at it while the clock has not passed it |
| Playback.ChunkAfterInterrupt | components/LiveAssistant.tsx:149-179 | after an interruption the next chunk starts at the clock |
| Playback.RunInOrder | components/LiveAssistant.tsx:142-181 | over any uninterrupted message sequence, chunks play in arrival order without overlap, at or after the initial cursor |
| LiveSession.ConfigForLanguage | components/LiveAssistant.tsx:115-122 | the Kore voice exactly for Hindi, Zephyr for English; the instruction carries the context, or `N/A` when it is empty |
| LiveSession.StartSession | components/LiveAssistant.tsx:91-198 | a blank key fails before anything is acquired; otherwise both contexts are created in a new generation, with no microphone callback on the new input context, and the microphone is requested; a microphone error is shown and prevents the connection; otherwise the session connects with the configuration |
| LiveSession.KeyMissingIffBlank | components/LiveAssistant.tsx:94 | a key is rejected exactly when it is all white space |
| LiveSession.OnOpen | components/LiveAssistant.tsx:103-141 | connecting ends; the microphone is wired to the current input context exactly when the opened connection belongs to the current generation (or it was already wired); nothing else changes |
| LiveSession.OpenSendsEveryFrame | components/LiveAssistant.tsx:125-141 | once the current connection opens with its input context open, every frame is sent, in order, as its own blob |
| LiveSession.OnError | components/LiveAssistant.tsx:182-186 | the fixed "connection interrupted" message and the end of connecting; nothing else changes |
| LiveSession.ErrorKeepsMicrophone | components/LiveAssistant.tsx:182-186 | after `onerror` every frame is sent or dropped exactly as before it |
| LiveSession.OnAudioProcess | components/LiveAssistant.tsx:131-137 | a frame is sent exactly while wired and the input context is open, as a 16 kHz PCM blob whose data base64-decodes to the frame's PCM bytes |
| LiveSession.CaptureSendsEachFrame | components/LiveAssistant.tsx:131-137 | every captured frame is sent once, in order, as its own blob |
| LiveSession.OnMessage | components/LiveAssistant.tsx:142-181 | only the playback state changes; nothing is started once the output context is cleared (an audio message then throws a TypeError) or by a connection of an earlier generation; a message of the current connection is the scheduler step |
| LiveSession.Detached | components/LiveAssistant.tsx:108-161 | for an older connection a decodable chunk becomes the cross-context failure at `connect`; a missing or undecodable chunk is unchanged |
| LiveSession.StaleMessageStartsNothing | components/LiveAssistant.tsx:142-181 | a message of an older connection starts nothing; with audio it raises the cursor to the clock and fails (InvalidAccessError when the audio decodes); without audio it is the scheduler step, so its interrupt stops the current sources |
| LiveSession.OnMessagePreservesValid | components/LiveAssistant.tsx:142-181 | every message, of any connection, before or after `cleanup`, keeps the scheduler invariant |
| LiveSession.Cleanup | components/LiveAssistant.tsx:78-89 | closes exactly the open contexts and clears them, drops the microphone callback with the input context, and stops and forgets every source; the cursor and flags are untouched |
| LiveSession.CleanupIdempotent | components/LiveAssistant.tsx:78-89 | a second `cleanup` closes nothing, stops nothing and changes nothing |
| LiveSession.QuietAfterCleanup | components/LiveAssistant.tsx:78-147 | after `cleanup` no frame is sent and no chunk is scheduled |
| LiveSession.RestartSendsNothingBeforeOpen | components/LiveAssistant.tsx:78-141 | after `cleanup` and a new `startSession` no frame is sent, not even after the `onopen` of an older connection; the new connection's `onopen` starts the sending |
| LiveSession.MissingKeyScenario | components/LiveAssistant.tsx:94-196 | with no key the overlay fails at once with the configuration message |
| Gemini.ImagePayloadOfDataUrl | geminiService.ts:76 | a data URL `header,payload` sends its payload |
| Gemini.ImagePayloadWithoutComma | geminiService.ts:76 | text without a comma is sent whole |
| Gemini.ImagePayloadShape | geminiService.ts:76 | the payload is the input or a non-empty comma-free field of it |
| Gemini.Sources | geminiService.ts:97-103 | at most one source per grounding chunk |
| Gemini.SourcesAppend | geminiService.ts:97-103 | the projection keeps chunk order (it distributes over concatenation) |
| Gemini.SourcesExactlyWeb | geminiService.ts:97-103 | exactly one source per chunk with `web`, and each source is one of those `web` members |
| Gemini.RemapError | geminiService.ts:108-114 | a message mentioning "API key" becomes the invalid-key message; any other keeps its message or falls back to the clearer-photo message; never empty |
| Gemini.Interpret | geminiService.ts:90-107 | a call error and a parse error pass through; empty text is "No diagnosis received"; it succeeds exactly when the text is non-empty and parses, and the result is the parsed diagnosis, with sources attached exactly when grounding chunks exist |
| Gemini.EmptyResponseNotKeyError | geminiService.ts:91-110 | the empty-response error survives the remapping unchanged |
| Gemini.DiagnosePlant | geminiService.ts:6-115 | a falsy key fails with the missing-key message and builds no request; otherwise the request is built and every failure carries a non-empty message; text that parses is returned as the diagnosis; empty text, call errors and parse errors are reported as their remapped messages |
| Gemini.TargetLanguage | geminiService.ts:5-72 | Hindi exactly for `hi`, English otherwise and by default, named in the prompt |
| Gemini.WhitespaceKeyAccepted | geminiService.ts:8 | a key of white space passes this guard |
| AppFlow.BeginProcess | App.tsx:36-37 | the image is stored, loading starts, result and error are cleared, and the camera is hidden |
| AppFlow.Settle | App.tsx:41-43 | loading ends with the diagnosis, or with the error's message (or the default) |
| AppFlow.ProcessImage | App.tsx:35-45 | the service is asked in English whatever the interface language; afterwards the image is kept, loading is over, the camera hidden, and exactly one of result and error is set: the diagnosis, or the error's message |
| AppFlow.ProcessImageShowsServiceMessage | App.tsx:43 | the shown error is always the service's own non-empty message, never the default |
| AppFlow.Reset | App.tsx:47-56 | empty state, both overlays hidden, language kept |
| AppFlow.ResetIdempotent | App.tsx:47-56 | resetting twice is resetting once, and gives the mount state |
| AppFlow.ToggleLang | App.tsx:66 | the language changes and nothing else does |
| AppFlow.ToggleTwice | App.tsx:66 | toggling twice restores the interface |
| AppFlow.DiagnosisContextContents | App.tsx:58-61 | the context of a diagnosis opens with "Plant has", the disease, its confidence and its summary, mentions every symptom and treatment step, and ends with the language sentence |
| AppFlow.ExpertContextContents | App.tsx:58-63 | with a diagnosis the context opens with "Plant has", the disease, its confidence and its summary, mentions every symptom and treatment step, and ends with the language sentence; without one it is the general-advice sentence |
| AppFlow.ExpertContextReachesLiveSession | App.tsx:58-63 | the expert context is never empty, so the live instruction always carries it verbatim and never `N/A` |
| Camera.ClassifyError | components/CameraModule.tsx:52-62 | permission refusals (by name, or "Permission dismissed" in the message) come first; then no-device names; otherwise the message or the default; never empty |
| Camera.Acquire | components/CameraModule.tsx:28-46 | at most two requests; none exactly without the API; the back camera first; any camera exactly when the back camera failed; the outcome is that of the last request |
| Camera.StartCamera | components/CameraModule.tsx:24-67 | at most two requests, the fallback exactly after a first failure; initialising ends; success sets the stream and clears the error; failure keeps the stream and shows the classified message |
| Camera.UnsupportedBrowser | components/CameraModule.tsx:28-62 | without `getUserMedia` nothing is requested and "not supported" is shown |
| Camera.BackCameraFirst | components/CameraModule.tsx:33-38 | a working back camera is used with one request |
| Camera.FallbackRecovers | components/CameraModule.tsx:39-46 | a refused back camera falls back, and a working camera is used without an error |
| Camera.StopStream | components/CameraModule.tsx:17-22 | every track of the stream is stopped and the stream is cleared; without a stream nothing happens |
| Camera.StopStreamIdempotent | components/CameraModule.tsx:17-22 | a second stop stops nothing |
| Camera.UnmountAsWritten | components/CameraModule.tsx:69-74 | the cleanup stops no track, so a held stream with tracks is not the one stopped |
| Camera.UnmountLeavesCameraOn | components/CameraModule.tsx:69-74 | a camera opened at mount is not stopped by that cleanup |
| Camera.Unmount | components/CameraModule.tsx:69-74 | the intended cleanup stops every track of the current stream |
| Camera.UnmountReleasesCamera | components/CameraModule.tsx:24-74 | every track opened by `startCamera` is stopped on unmount |

## Left out

- Browser error messages: only the error name is significant to the app; the InvalidAccessError of a cross-context `connect` (`LiveSession.CrossContext`) carries a short paraphrase of the browser's message.
- Float32 rounding: samples are exact reals. `Float32Array` storage and the division by 32768 on output are not rounded.
- The level meter (`components/LiveAssistant.tsx` lines 203-213): it is display only.
- The interleaving of the handler's `await`s: each message and each `startSession` is one atomic step.
- The JSON shape of server messages: a message is reduced to its first audio part and its `interrupted` flag.
- Pcm.DecodeAudioData: the channel and sample-rate limits of `createBuffer` are Chromium's (1 to 32 channels, 3000 to 768000 Hz); other engines may accept a wider range.
- `onclose`, and the `onClose` prop of the live assistant: these are navigation in the React tree.
- The analyser node and the script-processor wiring: beyond "wired or not", they are plumbing with no logic.
- `cleanup` does not stop the microphone tracks or close the live connection. The model records only what it does.
- `JSON.parse` and the response schema: the parse is a parameter, and the schema is enforced remotely.
- React rendering, `DiagnosticDisplay`, `Layout`, `BrandCarousel`, translations, the file reader, the canvas capture of `capturePhoto`, and the build configuration: none of them has logic worth stating.
- When React re-runs the live session's effect (a new `onClose` arrow or a new `lang` on a render): that is React effect scheduling. The restart itself, `cleanup` then `startSession`, is modelled.
- LiveSession.StartSession: the analyser and `GoogleGenAI` client creation are not modelled. A microphone failure is the only failure between the key guard and `connect`.

## Findings

| source | as written | input that shows it | evidently intended | confidence | as-written member | corrected member |
|---|---|---|---|---|---|---|
| components/CameraModule.tsx:69-74 | The effect runs once (its only dependency, `startCamera`, never changes). Its cleanup therefore calls the `stopStream` of the first render, whose `stream` is still `null`. | The back camera opens a stream with one track, then the user cancels and the component unmounts: no track is stopped, and the camera stays on. | On unmount, stop the tracks of the stream the component holds. | high, not executed | Camera.UnmountAsWritten, Camera.UnmountLeavesCameraOn | Camera.Unmount, Camera.UnmountReleasesCamera |

=== FILE: app.dfy ===
/**
 The diagnosis flow of App.tsx: `processImage`, `reset`,
 `getExpertContext` and the language toggle, over the `AppState` record
 and the two overlay flags.
 */
module AppFlow {
  import opened Outcomes
  import opened Types
  import JsText
  import Gemini
  import LiveSession

  const UnexpectedErrorMessage: string := "An unexpected error occurred."

  /** Everything App keeps in state: language, diagnosis state, and the camera and live-expert overlays. */
  datatype Ui = Ui(lang: Lang, state: AppState, showCamera: bool, showLiveExpert: bool)

  function EmptyState(): AppState {
    AppState(None, false, None, None)
  }

  /** The state at mount: English, nothing loaded, no overlay. */
  function Initial(): Ui {
    Ui(En, EmptyState(), false, false)
  }

  /** The first update of `processImage`: store the image, start loading, clear result and error, hide the camera. */
  function BeginProcess(ui: Ui, image: string): (r: Ui)
    ensures r.state.image == Some(image) && r.state.loading
    ensures r.state.result.None? && r.state.error.None?
    ensures !r.showCamera
    ensures r.lang == ui.lang && r.showLiveExpert == ui.showLiveExpert
  {
    ui.(state := ui.state.(image := Some(image), loading := true, error := None, result := None), showCamera := false)
  }

  /** The second update of `processImage`: the diagnosis, or the error's message (or the default). */
  function Settle(ui: Ui, outcome: Result<DiagnosisResult>): (r: Ui)
    ensures !r.state.loading && r.state.image == ui.state.image
    ensures outcome.Ok? ==> r.state.result == Some(outcome.value) && r.state.error == ui.state.error
    ensures outcome.Err? ==>
      && r.state.error == Some(OrElse(outcome.error.message, UnexpectedErrorMessage))
      && r.state.result == ui.state.result
    ensures r.lang == ui.lang && r.showCamera == ui.showCamera && r.showLiveExpert == ui.showLiveExpert
  {
    match outcome
    case Ok(d) => ui.(state := ui.state.(loading := false, result := Some(d)))
    case Err(e) => ui.(state := ui.state.(loading := false, error := Some(OrElse(e.message, UnexpectedErrorMessage))))
  }

  /**
   `processImage`: begin, call `diagnosePlant(image)` (with its default
   language, whatever the interface language is), then settle with its
   outcome. Afterwards the image is kept, loading is over, the camera is
   hidden, and exactly one of result and error is set: the diagnosis on
   success, the error's message on failure.
   */
  function ProcessImage(ui: Ui, image: string, apiKey: Option<string>,
                        generated: Result<Gemini.Response>, parse: string -> Result<DiagnosisResult>): (r: (Ui, Gemini.Call))
    ensures r.1 == Gemini.DiagnosePlant(apiKey, image, En, generated, parse)
    ensures apiKey.Some? && apiKey.value != [] ==> r.1.request == Some(Gemini.BuildRequest(image, En))
    ensures r.0.state.image == Some(image) && !r.0.state.loading && !r.0.showCamera
    ensures r.0.lang == ui.lang && r.0.showLiveExpert == ui.showLiveExpert
    ensures r.0.state.result.Some? <==> r.1.result.Ok?
    ensures r.0.state.error.Some? <==> r.1.result.Err?
    ensures r.1.result.Ok? ==> r.0.state.result == Some(r.1.result.value)
    ensures r.1.result.Err? ==> r.0.state.error == Some(OrElse(r.1.result.error.message, UnexpectedErrorMessage))
  {
    var call := Gemini.DiagnosePlant(apiKey, image, Gemini.DefaultLang, generated, parse);
    (Settle(BeginProcess(ui, image), call.result), call)
  }

  /**
   The service never rejects with an empty message, so the fallback
   "An unexpected error occurred." is never shown: the error is the
   service's own message.
   */
  lemma ProcessImageShowsServiceMessage(ui: Ui, image: string, apiKey: Option<string>,
                                        generated: Result<Gemini.Response>, parse: string -> Result<DiagnosisResult>)
    ensures var (after, call) := ProcessImage(ui, image, apiKey, generated, parse);
      call.result.Err? ==> after.state.error == Some(call.result.error.message) && call.result.error.message != []
  {
  }

  /** `reset`: all-empty state, both overlays hidden; the language is kept. */
  function Reset(ui: Ui): (r: Ui)
    ensures r.state.image.None? && !r.state.loading && r.state.result.None? && r.state.error.None?
    ensures !r.showCamera && !r.showLiveExpert
    ensures r.lang == ui.lang
  {
    Ui(ui.lang, EmptyState(), false, false)
  }

  lemma ResetIdempotent(ui: Ui)
    ensures Reset(Reset(ui)) == Reset(ui)
    ensures Reset(ui).state == Initial().state
  {
  }

  /** The toggle of the header: `en` becomes `hi` and `hi` becomes `en`. */
  function Toggle(l: Lang): (r: Lang)
    ensures r != l
  {
    if l == En then Hi else En
  }

  /** The header toggle changes the language and nothing else. */
  function ToggleLang(ui: Ui): (r: Ui)
    ensures r.lang != ui.lang
    ensures r == ui.(lang := r.lang)
  {
    ui.(lang := Toggle(ui.lang))
  }

  /** Toggling twice restores the original language. */
  lemma ToggleTwice(ui: Ui)
    ensures ToggleLang(ToggleLang(ui)) == ui
  {
  }

  // ---------------------------------------------------------------------
  // getExpertContext
  // ---------------------------------------------------------------------

  const GeneralAdvice: string := "User is asking for general agricultural advice. Language: "

  /** The opening of the context for a diagnosis: its name, confidence and summary. */
  function DiagnosisHead(d: DiagnosisResult): string {
    "Plant has " + d.diseaseName + ". Confidence: " + d.confidence + ". Summary: " + d.summary
  }

  /** The context for a diagnosis: its name, confidence, summary, symptoms and steps, then the language code. */
  function DiagnosisContext(d: DiagnosisResult, code: string): string {
    DiagnosisHead(d) + ". Symptoms: " + JsText.Join(d.symptoms, ", ") + ". Treatment: " + JsText.Join(d.treatmentSteps, ", ")
    + ". Language: " + code + "."
  }

  /** The context handed to the live expert. */
  function ExpertContext(ui: Ui): string {
    match ui.state.result
    case Some(d) => DiagnosisContext(d, LangCode(ui.lang))
    case None => GeneralAdvice + LangCode(ui.lang) + "."
  }

  /**
   The context of a diagnosis opens with its disease name, confidence and
   summary, mentions every symptom and every treatment step, and closes
   with the language code.
   */
  lemma DiagnosisContextContents(d: DiagnosisResult, code: string)
    ensures var ctx := DiagnosisContext(d, code);
      var tail := ". Language: " + code + ".";
      var head := DiagnosisHead(d);
      && |ctx| >= |head| + |tail|
      && ctx[..|head|] == head
      && ctx[|ctx| - |tail|..] == tail
      && (forall i :: 0 <= i < |d.symptoms| ==> JsText.Includes(ctx, d.symptoms[i]))
      && (forall i :: 0 <= i < |d.treatmentSteps| ==> JsText.Includes(ctx, d.treatmentSteps[i]))
  {
    var ctx := DiagnosisContext(d, code);
    var symptoms := JsText.Join(d.symptoms, ", ");
    var steps := JsText.Join(d.treatmentSteps, ", ");
    var head := DiagnosisHead(d);
    var a := head + ". Symptoms: ";
    var tail := ". Language: " + code + ".";
    var b := ". Treatment: " + steps + tail;
    assert ctx == a + symptoms + b;
    assert ctx[..|head|] == head;
    forall i | 0 <= i < |d.symptoms| ensures JsText.Includes(ctx, d.symptoms[i]) {
      JsText.IncludesJoined(a, d.symptoms, ", ", b, i);
    }
    var a2 := a + symptoms + ". Treatment: ";
    assert ctx == a2 + steps + tail;
    forall i | 0 <= i < |d.treatmentSteps| ensures JsText.Includes(ctx, d.treatmentSteps[i]) {
      JsText.IncludesJoined(a2, d.treatmentSteps, ", ", tail, i);
    }
  }

  /**
   With a diagnosis the context opens with its disease name, confidence
   and summary, and mentions every symptom and every treatment step; without one it is the
   general-advice sentence. Both end with the language code.
   */
  lemma ExpertContextContents(ui: Ui)
    ensures var ctx := ExpertContext(ui);
      var tail := ". Language: " + LangCode(ui.lang) + ".";
      && |ctx| >= |LangCode(ui.lang)| + 1
      && ctx[|ctx| - |LangCode(ui.lang)| - 1..] == LangCode(ui.lang) + "."
      && (ui.state.result.None? ==> ctx == GeneralAdvice + LangCode(ui.lang) + ".")
      && (ui.state.result.Some? ==>
            && |ctx| >= |DiagnosisHead(ui.state.result.value)|
            && ctx[..|DiagnosisHead(ui.state.result.value)|] == DiagnosisHead(ui.state.result.value)
            && ctx[|ctx| - |tail|..] == tail
            && (forall i :: 0 <= i < |ui.state.result.value.symptoms| ==>
                  JsText.Includes(ctx, ui.state.result.value.symptoms[i]))
            && (forall i :: 0 <= i < |ui.state.result.value.treatmentSteps| ==>
                  JsText.Includes(ctx, ui.state.result.value.treatmentSteps[i])))
  {
    var code := LangCode(ui.lang);
    if ui.state.result.Some? {
      var ctx := ExpertContext(ui);
      DiagnosisContextContents(ui.state.result.value, code);
      var tail := ". Language: " + code + ".";
      assert ctx[|ctx| - |code| - 1..] == tail[|tail| - |code| - 1..];
    }
  }

  /**
   The context handed to the live expert is never empty, so the live
   session's instruction always carries it verbatim and never `N/A`.
   */
  lemma ExpertContextReachesLiveSession(ui: Ui, base: string)
    ensures ExpertContext(ui) != []
    ensures LiveSession.ConfigFor(base, ui.lang, ExpertContext(ui)).systemInstruction
         == base + " Preferred Language: " + LangName(ui.lang) + ". Context: " + ExpertContext(ui) + "."
  {
    ExpertContextContents(ui);
    LiveSession.ConfigForLanguage(base, ui.lang, ExpertContext(ui));
  }
}

=== FILE: base64.dfy ===
/**
 The transport codec of the live-voice bridge: `encode` (bytes to base64
 text through `btoa`) and `decode` (base64 text to bytes through `atob`).

 Both go through a "binary string" that holds one UTF-16 code unit per
 byte. `btoa` is the base64 encoding of section 4 of RFC 4648 with `=`
 padding; `atob` is the forgiving-base64 decode of the WHATWG Infra
 Standard, which ignores ASCII whitespace, accepts missing padding and
 discards the unused low bits of a final partial group.
 */
module Base64 {
  import opened Outcomes

  type byte = x: int | 0 <= x < 256

  /** A base64 digit value. */
  type sextet = x: int | 0 <= x < 64

  // ---------------------------------------------------------------------
  // The alphabet of Table 1 of RFC 4648
  // ---------------------------------------------------------------------

  predicate IsAlphabet(c: char) {
    ('A' <= c <= 'Z') || ('a' <= c <= 'z') || ('0' <= c <= '9') || c == '+' || c == '/'
  }

  function CharOf(v: sextet): (c: char)
    ensures IsAlphabet(c)
  {
    if v < 26 then (('A' as int) + v) as char
    else if v < 52 then (('a' as int) + (v - 26)) as char
    else if v < 62 then (('0' as int) + (v - 52)) as char
    else if v == 62 then '+'
    else '/'
  }

  function ValueOf(c: char): (v: sextet)
    requires IsAlphabet(c)
    ensures CharOf(v) == c
  {
    if 'A' <= c <= 'Z' then c as int - 'A' as int
    else if 'a' <= c <= 'z' then c as int - 'a' as int + 26
    else if '0' <= c <= '9' then c as int - '0' as int + 52
    else if c == '+' then 62
    else 63
  }

  /** The alphabet is a bijection between digit values and its 64 characters. */
  lemma ValueOfCharOf(v: sextet)
    ensures ValueOf(CharOf(v)) == v
  {
  }

  predicate AllAlphabet(s: string) {
    forall i :: 0 <= i < |s| ==> IsAlphabet(s[i])
  }

  // ---------------------------------------------------------------------
  // Groups: 3 bytes <-> 4 digits, and the two partial final groups
  // ---------------------------------------------------------------------

  function EncodeGroup(b0: byte, b1: byte, b2: byte): (s: string)
    ensures |s| == 4 && AllAlphabet(s)
  {
    [CharOf(b0 / 4), CharOf((b0 % 4) * 16 + b1 / 16), CharOf((b1 % 16) * 4 + b2 / 64), CharOf(b2 % 64)]
  }

  /** Two bytes: 16 bits in three digits, the last two bits zero. */
  function EncodeTail2(b0: byte, b1: byte): (s: string)
    ensures |s| == 3 && AllAlphabet(s)
  {
    [CharOf(b0 / 4), CharOf((b0 % 4) * 16 + b1 / 16), CharOf((b1 % 16) * 4)]
  }

  /** One byte: 8 bits in two digits, the last four bits zero. */
  function EncodeTail1(b0: byte): (s: string)
    ensures |s| == 2 && AllAlphabet(s)
  {
    [CharOf(b0 / 4), CharOf((b0 % 4) * 16)]
  }

  function DecodeGroup(s: string): seq<byte>
    requires |s| == 4 && AllAlphabet(s)
  {
    var v0, v1, v2, v3 := ValueOf(s[0]), ValueOf(s[1]), ValueOf(s[2]), ValueOf(s[3]);
    [v0 * 4 + v1 / 16, (v1 % 16) * 16 + v2 / 4, (v2 % 4) * 64 + v3]
  }

  /** 18 bits: the low two are discarded. */
  function DecodeTail3(s: string): seq<byte>
    requires |s| == 3 && AllAlphabet(s)
  {
    var v0, v1, v2 := ValueOf(s[0]), ValueOf(s[1]), ValueOf(s[2]);
    [v0 * 4 + v1 / 16, (v1 % 16) * 16 + v2 / 4]
  }

  /** 12 bits: the low four are discarded. */
  function DecodeTail2(s: string): seq<byte>
    requires |s| == 2 && AllAlphabet(s)
  {
    var v0, v1 := ValueOf(s[0]), ValueOf(s[1]);
    [v0 * 4 + v1 / 16]
  }

  /** The first byte is the first digit's six bits and the high two of the second digit. */
  lemma FirstByteBits(b0: byte, b1: byte)
    ensures (b0 / 4) * 4 + ((b0 % 4) * 16 + b1 / 16) / 16 == b0
  {
    assert ((b0 % 4) * 16 + b1 / 16) / 16 == b0 % 4;
  }

  /** The middle byte is the low four bits of the second digit and the high four of the third. */
  lemma MiddleByteBits(b0: byte, b1: byte, b2: byte)
    ensures (((b0 % 4) * 16 + b1 / 16) % 16) * 16 + ((b1 % 16) * 4 + b2 / 64) / 4 == b1
  {
    assert ((b0 % 4) * 16 + b1 / 16) % 16 == b1 / 16;
    assert ((b1 % 16) * 4 + b2 / 64) / 4 == b1 % 16;
  }

  /** The last byte is the low two bits of the third digit and the fourth digit. */
  lemma LastByteBits(b1: byte, b2: byte)
    ensures (((b1 % 16) * 4 + b2 / 64) % 4) * 64 + b2 % 64 == b2
  {
    assert ((b1 % 16) * 4 + b2 / 64) % 4 == b2 / 64;
  }

  lemma GroupRoundTrip(b0: byte, b1: byte, b2: byte)
    ensures DecodeGroup(EncodeGroup(b0, b1, b2)) == [b0, b1, b2]
  {
    var s := EncodeGroup(b0, b1, b2);
    var v0, v1, v2, v3 := b0 / 4, (b0 % 4) * 16 + b1 / 16, (b1 % 16) * 4 + b2 / 64, b2 % 64;
    ValueOfCharOf(v0);
    ValueOfCharOf(v1);
    ValueOfCharOf(v2);
    ValueOfCharOf(v3);
    assert ValueOf(s[0]) == v0 && ValueOf(s[1]) == v1 && ValueOf(s[2]) == v2 && ValueOf(s[3]) == v3;
    FirstByteBits(b0, b1);
    MiddleByteBits(b0, b1, b2);
    LastByteBits(b1, b2);
  }

  lemma Tail2RoundTrip(b0: byte, b1: byte)
    ensures DecodeTail3(EncodeTail2(b0, b1)) == [b0, b1]
  {
    ValueOfCharOf(b0 / 4);
    ValueOfCharOf((b0 % 4) * 16 + b1 / 16);
    ValueOfCharOf((b1 % 16) * 4);
  }

  lemma Tail1RoundTrip(b0: byte)
    ensures DecodeTail2(EncodeTail1(b0)) == [b0]
  {
    ValueOfCharOf(b0 / 4);
    ValueOfCharOf((b0 % 4) * 16);
  }

  // ---------------------------------------------------------------------
  // Whole sequences
  // ---------------------------------------------------------------------

  /** Number of digits (before padding) that encode `n` bytes. */
  function RawLength(n: nat): nat {
    (n / 3) * 4 + (if n % 3 == 0 then 0 else n % 3 + 1)
  }

  lemma RawLengthStep(n: nat)
    requires n >= 3
    ensures RawLength(n) == 4 + RawLength(n - 3)
  {
    assert n / 3 == (n - 3) / 3 + 1 && n % 3 == (n - 3) % 3;
  }

  /** The digits of the encoding of `b`, without padding. */
  function EncodeRaw(b: seq<byte>): (s: string)
    ensures |s| == RawLength(|b|) && |s| % 4 != 1
    ensures AllAlphabet(s)
    decreases |b|
  {
    RawLengthShape(|b|);
    if |b| >= 3 then
      RawLengthStep(|b|);
      var g, rest := EncodeGroup(b[0], b[1], b[2]), EncodeRaw(b[3..]);
      assert forall i :: 0 <= i < |g + rest| ==> (g + rest)[i] == if i < 4 then g[i] else rest[i - 4];
      g + rest
    else if |b| == 2 then EncodeTail2(b[0], b[1])
    else if |b| == 1 then EncodeTail1(b[0])
    else []
  }

  /** The `=` characters that complete the last group to four characters. */
  function Padding(n: nat): string {
    if n % 3 == 1 then "==" else if n % 3 == 2 then "=" else ""
  }

  /** Decodes a padding-free digit string whose length is not 1 modulo 4. */
  function DecodeRaw(s: string): (b: seq<byte>)
    requires AllAlphabet(s) && |s| % 4 != 1
    decreases |s|
  {
    if |s| >= 4 then DecodeGroup(s[..4]) + DecodeRaw(s[4..])
    else if |s| == 3 then DecodeTail3(s)
    else if |s| == 2 then DecodeTail2(s)
    else []
  }

  /** Decoding a full leading group and then the rest. */
  lemma RawStep(b: seq<byte>)
    requires |b| >= 3
    ensures DecodeRaw(EncodeRaw(b)) == DecodeGroup(EncodeGroup(b[0], b[1], b[2])) + DecodeRaw(EncodeRaw(b[3..]))
  {
    var g := EncodeGroup(b[0], b[1], b[2]);
    var rest := EncodeRaw(b[3..]);
    assert (g + rest)[..4] == g && (g + rest)[4..] == rest;
  }

  lemma SplitFirstThree(b: seq<byte>)
    requires |b| >= 3
    ensures [b[0], b[1], b[2]] + b[3..] == b
  {
    assert ([b[0], b[1], b[2]] + b[3..])[..3] == b[..3];
  }

  lemma {:induction false} RawRoundTrip(b: seq<byte>)
    ensures DecodeRaw(EncodeRaw(b)) == b
    decreases |b|
  {
    if |b| >= 3 {
      RawStep(b);
      GroupRoundTrip(b[0], b[1], b[2]);
      RawRoundTrip(b[3..]);
      SplitFirstThree(b);
    } else if |b| == 2 {
      Tail2RoundTrip(b[0], b[1]);
    } else if |b| == 1 {
      Tail1RoundTrip(b[0]);
    }
  }

  /** ASCII whitespace of the Infra Standard: tab, line feed, form feed, carriage return, space. */
  predicate IsAsciiWhitespace(c: char) {
    c == '\t' || c == '\n' || c == '\U{000C}' || c == '\r' || c == ' '
  }

  function RemoveWhitespace(s: string): (r: string)
    ensures |r| <= |s|
    ensures forall i :: 0 <= i < |r| ==> !IsAsciiWhitespace(r[i])
  {
    if s == [] then []
    else if IsAsciiWhitespace(s[0]) then RemoveWhitespace(s[1..])
    else [s[0]] + RemoveWhitespace(s[1..])
  }

  /** Removal keeps exactly the characters that are not white space. */
  lemma {:induction false} RemoveWhitespaceKeeps(s: string, c: char)
    ensures c in RemoveWhitespace(s) <==> c in s && !IsAsciiWhitespace(c)
    decreases |s|
  {
    if s != [] {
      RemoveWhitespaceKeeps(s[1..], c);
      assert c in s <==> c == s[0] || c in s[1..] by {
        assert s == [s[0]] + s[1..];
      }
    }
  }

  lemma {:induction false} RemoveWhitespaceNoop(s: string)
    requires forall i :: 0 <= i < |s| ==> !IsAsciiWhitespace(s[i])
    ensures RemoveWhitespace(s) == s
  {
    if s != [] {
      RemoveWhitespaceNoop(s[1..]);
      assert s == [s[0]] + s[1..];
    }
  }

  /** Drops one or two trailing `=` (step 2 of forgiving-base64 decode, applied when the length is a multiple of 4). */
  function StripPadding(d: string): string {
    if |d| >= 2 && d[|d| - 1] == '=' && d[|d| - 2] == '=' then d[..|d| - 2]
    else if |d| >= 1 && d[|d| - 1] == '=' then d[..|d| - 1]
    else d
  }

  /** Steps 1 and 2 of the algorithm: white space removed, then padding dropped when the length is a multiple of 4. */
  function Digits(s: string): string {
    var d := RemoveWhitespace(s);
    if |d| % 4 == 0 then StripPadding(d) else d
  }

  /** The forgiving-base64 decode algorithm; `None` is its failure. */
  function ForgivingDecode(s: string): Option<seq<byte>> {
    var e := Digits(s);
    if |e| % 4 == 1 || !AllAlphabet(e) then None
    else Some(DecodeRaw(e))
  }

  /** A successful decode yields at most three bytes per four characters of input. */
  lemma DecodedLength(s: string)
    ensures ForgivingDecode(s).Some? ==> |ForgivingDecode(s).value| * 4 <= |s| * 3
  {
    var e := Digits(s);
    if ForgivingDecode(s).Some? {
      DecodeRawLength(e);
      assert |e| <= |s|;
    }
  }

  lemma {:induction false} DecodeRawLength(s: string)
    requires AllAlphabet(s) && |s| % 4 != 1
    ensures |DecodeRaw(s)| == (|s| / 4) * 3 + (if |s| % 4 == 0 then 0 else |s| % 4 - 1)
    decreases |s|
  {
    if |s| >= 4 {
      DecodeRawLength(s[4..]);
    }
  }

  /** The complete RFC 4648 encoding of `b`: digits, then padding. */
  function EncodeBytes(b: seq<byte>): (s: string)
    ensures |s| == 4 * ((|b| + 2) / 3)
    ensures forall i :: 0 <= i < |s| ==> IsAlphabet(s[i]) || s[i] == '='
    ensures forall i :: 0 <= i < |s| && s[i] == '=' ==> i >= |s| - 2
  {
    RawLengthShape(|b|);
    EncodeRaw(b) + Padding(|b|)
  }

  lemma RawLengthShape(n: nat)
    ensures RawLength(n) % 4 == (if n % 3 == 0 then 0 else n % 3 + 1)
    ensures RawLength(n) + |Padding(n)| == 4 * ((n + 2) / 3)
  {
  }

  /** Padding after alphabet characters is exactly what step 2 drops. */
  lemma StripPaddingOf(raw: string, pad: string)
    requires AllAlphabet(raw)
    requires pad == "" || pad == "=" || pad == "=="
    requires pad != "" ==> raw != []
    ensures StripPadding(raw + pad) == raw
  {
    var s := raw + pad;
    if pad == "==" {
      assert s[..|s| - 2] == raw;
    } else if pad == "=" {
      assert s[|s| - 2] == raw[|raw| - 1];
      assert s[..|s| - 1] == raw;
    } else {
      assert s == raw;
      if |s| > 0 {
        assert IsAlphabet(s[|s| - 1]);
      }
    }
  }

  /** Removing the padding of an encoding leaves exactly its digits. */
  lemma StripPaddingOfEncoding(b: seq<byte>)
    ensures StripPadding(EncodeRaw(b) + Padding(|b|)) == EncodeRaw(b)
  {
    RawLengthShape(|b|);
    StripPaddingOf(EncodeRaw(b), Padding(|b|));
  }

  /** Forgiving decode of digits and `=` of length 4k is the decode of its unpadded digits. */
  lemma ForgivingDecodeCanonical(s: string, raw: string)
    requires forall i :: 0 <= i < |s| ==> IsAlphabet(s[i]) || s[i] == '='
    requires |s| % 4 == 0 && StripPadding(s) == raw
    requires AllAlphabet(raw) && |raw| % 4 != 1
    ensures ForgivingDecode(s) == Some(DecodeRaw(raw))
  {
    assert forall i :: 0 <= i < |s| ==> !IsAsciiWhitespace(s[i]);
    RemoveWhitespaceNoop(s);
    assert Digits(s) == raw;
  }

  /** The padded encoding is the digits followed by the padding, a whole number of groups. */
  lemma EncodeBytesShape(b: seq<byte>)
    ensures EncodeBytes(b) == EncodeRaw(b) + Padding(|b|)
    ensures |EncodeBytes(b)| % 4 == 0
  {
    var q := (|b| + 2) / 3;
    assert |EncodeBytes(b)| == 4 * q;
    MultipleOfFour(q);
  }

  lemma MultipleOfFour(q: int)
    ensures (4 * q) % 4 == 0
  {
  }

  /** Forgiving decode undoes the RFC 4648 encoding of every byte sequence. */
  lemma ForgivingDecodeEncode(b: seq<byte>)
    ensures ForgivingDecode(EncodeBytes(b)) == Some(b)
  {
    EncodeBytesShape(b);
    StripPaddingOfEncoding(b);
    ForgivingDecodeCanonical(EncodeBytes(b), EncodeRaw(b));
    RawRoundTrip(b);
  }

  // ---------------------------------------------------------------------
  // The browser primitives and the two functions of the source
  // ---------------------------------------------------------------------

  /** `String.fromCharCode(bytes[i])` for every byte, concatenated (the loop of `encode`). */
  function BinaryString(bytes: seq<byte>): (s: string)
    ensures |s| == |bytes|
    ensures forall i :: 0 <= i < |s| ==> s[i] as int == bytes[i]
  {
    seq(|bytes|, i requires 0 <= i < |bytes| => bytes[i] as char)
  }

  /** Storing `s.charCodeAt(i)` into a `Uint8Array` keeps the code unit modulo 256 (the loop of `decode`). */
  function CodeUnitBytes(s: string): (b: seq<byte>)
    ensures |b| == |s|
    ensures forall i :: 0 <= i < |s| ==> b[i] == s[i] as int % 256
  {
    seq(|s|, i requires 0 <= i < |s| => s[i] as int % 256)
  }

  /** Reading back the code units of a binary string gives its bytes. */
  lemma CodeUnitsOfBinary(b: seq<byte>)
    ensures CodeUnitBytes(BinaryString(b)) == b
  {
  }

  /** A string of code units below 256 is the binary string of the bytes read from it. */
  lemma BinaryOfCodeUnits(s: string)
    requires forall i :: 0 <= i < |s| ==> s[i] as int < 256
    ensures BinaryString(CodeUnitBytes(s)) == s
  {
    var t := BinaryString(CodeUnitBytes(s));
    forall i | 0 <= i < |s| ensures t[i] == s[i] {
      assert t[i] as int == s[i] as int;
    }
  }

  function InvalidCharacter(): JsError {
    JsError("InvalidCharacterError", "The string contains characters outside of the Latin1 range or is not correctly encoded.")
  }

  /** `btoa`: fails on a code unit above U+00FF, otherwise encodes the code units as bytes. */
  function Btoa(s: string): (r: Result<string>)
    ensures r.Ok? <==> forall i :: 0 <= i < |s| ==> s[i] as int < 256
  {
    if forall i :: 0 <= i < |s| ==> s[i] as int < 256 then Ok(EncodeBytes(CodeUnitBytes(s)))
    else Err(InvalidCharacter())
  }

  /** `atob`: forgiving decode, returned as a binary string; failure is an `InvalidCharacterError`. */
  function Atob(s: string): Result<string> {
    match ForgivingDecode(s)
    case Some(b) => Ok(BinaryString(b))
    case None => Err(InvalidCharacter())
  }

  /** `encode` (components/LiveAssistant.tsx): bytes to base64 text; `btoa` never fails here. */
  function Encode(bytes: seq<byte>): (s: string)
    ensures s == EncodeBytes(bytes)
    ensures |s| == 4 * ((|bytes| + 2) / 3)
    ensures forall i :: 0 <= i < |s| ==> IsAlphabet(s[i]) || s[i] == '='
  {
    var bin := BinaryString(bytes);
    CodeUnitsOfBinary(bytes);
    match Btoa(bin)
    case Ok(s) => s
    case Err(_) => assert false; []
  }

  /** `decode` (components/LiveAssistant.tsx): base64 text to bytes; an `atob` failure propagates. */
  function Decode(s: string): (r: Result<seq<byte>>)
    ensures r.Err? <==> ForgivingDecode(s).None?
    ensures r.Ok? ==> r.value == ForgivingDecode(s).value
  {
    match Atob(s)
    case Ok(bin) =>
      CodeUnitsOfBinary(ForgivingDecode(s).value);
      Ok(CodeUnitBytes(bin))
    case Err(e) => Err(e)
  }

  /** `decode(encode(b))` returns `b` for every byte sequence. */
  lemma DecodeEncode(b: seq<byte>)
    ensures Decode(Encode(b)) == Ok(b)
  {
    ForgivingDecodeEncode(b);
  }

  /** The decoder discards the unused low bits of a final partial group, so it is not injective. */
  lemma DecodeDiscardsTrailingBits()
    ensures Decode("AB==") == Decode("AA==") == Ok([0])
  {
    TrailingBitsOf('A');
    TrailingBitsOf('B');
  }

  lemma TrailingBitsOf(c: char)
    requires c == 'A' || c == 'B'
    ensures ForgivingDecode(['A', c, '=', '=']) == Some([0])
  {
    var s := ['A', c, '=', '='];
    RemoveWhitespaceNoop(s);
    assert StripPadding(s) == ['A', c];
    assert Digits(s) == ['A', c];
    assert ValueOf('A') == 0 && ValueOf(c) < 16;
    assert DecodeRaw(['A', c]) == DecodeTail2(['A', c]) == [0];
  }

  /** White space anywhere in the input is ignored. */
  lemma DecodeIgnoresWhitespace(s: string)
    ensures Decode(s) == Decode(RemoveWhitespace(s))
  {
    RemoveWhitespaceNoop(RemoveWhitespace(s));
    assert Digits(s) == Digits(RemoveWhitespace(s));
    assert ForgivingDecode(s) == ForgivingDecode(RemoveWhitespace(s));
  }

  /** A character that is neither in the alphabet, nor white space, nor `=` makes the input invalid, wherever it is. */
  lemma DecodeRejectsForeignCharacter(s: string, i: nat)
    requires i < |s| && !IsAlphabet(s[i]) && !IsAsciiWhitespace(s[i]) && s[i] != '='
    ensures Decode(s).Err?
  {
    ForeignCharacterSurvives(s, s[i]);
    assert ForgivingDecode(s).None?;
  }

  /** A character other than white space and `=` is still there after steps 1 and 2. */
  lemma ForeignCharacterSurvives(s: string, c: char)
    requires c in s && !IsAsciiWhitespace(c) && c != '='
    ensures !AllAlphabet(Digits(s)) || IsAlphabet(c)
  {
    var d := RemoveWhitespace(s);
    RemoveWhitespaceKeeps(s, c);
    var e := Digits(s);
    assert d == e + d[|e|..];
    assert forall j :: |e| <= j < |d| ==> d[j] == '=';
    var k :| 0 <= k < |d| && d[k] == c;
    assert e[k] == c;
  }

  /** A string whose length after whitespace removal is 1 modulo 4 is rejected. */
  lemma DecodeRejectsDanglingDigit(s: string)
    requires |RemoveWhitespace(s)| % 4 == 1
    ensures Decode(s).Err?
  {
    assert ForgivingDecode(s).None? by {
      assert Digits(s) == RemoveWhitespace(s);
    }
  }
}

=== FILE: camera.dfy ===
/**
 The camera capture of components/CameraModule.tsx: `startCamera` with
 its fallback from the back camera to any camera, the classification of
 its errors into user-facing messages, and `stopStream`.

 `getUserMedia` is an input: `Devices` says whether the API exists and
 what each of the two requests yields. The video element, the canvas and
 the captured JPEG are not modelled.
 */
module Camera {
  import opened Outcomes
  import JsText

  const NotSupportedMessage: string := "Camera API not supported in this browser."
  const PermissionMessage: string :=
    "Camera permission was dismissed or denied. Please enable camera access in your browser settings to continue."
  const NoCameraMessage: string := "No camera found on this device."
  const UnexpectedMessage: string := "An unexpected error occurred while accessing the camera."

  /** A media stream, reduced to the ids of its tracks. */
  datatype Stream = Stream(tracks: seq<nat>)

  /** The two constraints tried: the back camera (`facingMode: ideal 'environment'`), then any camera. */
  datatype Constraint = EnvironmentFacing | AnyCamera

  /** What the browser offers: whether `getUserMedia` exists, and the outcome of each request. */
  datatype Devices = Devices(apiAvailable: bool, environment: Result<Stream>, anyCamera: Result<Stream>)

  datatype CameraState = CameraState(stream: Option<Stream>, error: Option<string>, isInitializing: bool)

  /** The state at mount: no stream, no error, initialising. */
  function Mount(): CameraState {
    CameraState(None, None, true)
  }

  /** A permission refusal, by error name or by the browser's "dismissed" wording. */
  predicate IsPermissionError(e: JsError) {
    e.name == "NotAllowedError" || e.name == "PermissionDeniedError" || JsText.Includes(e.message, "Permission dismissed")
  }

  predicate IsNoDeviceError(e: JsError) {
    e.name == "NotFoundError" || e.name == "DevicesNotFoundError"
  }

  /** The message shown for an error of `startCamera`; the permission test comes first. */
  function ClassifyError(e: JsError): (msg: string)
    ensures msg != []
    ensures IsPermissionError(e) ==> msg == PermissionMessage
    ensures msg == PermissionMessage <==> IsPermissionError(e) || (!IsNoDeviceError(e) && e.message == PermissionMessage)
    ensures !IsPermissionError(e) && IsNoDeviceError(e) ==> msg == NoCameraMessage
    ensures !IsPermissionError(e) && !IsNoDeviceError(e) ==> msg == OrElse(e.message, UnexpectedMessage)
  {
    if IsPermissionError(e) then PermissionMessage
    else if IsNoDeviceError(e) then NoCameraMessage
    else OrElse(e.message, UnexpectedMessage)
  }

  /** `getUserMedia` as `startCamera` uses it: the constraints requested, in order, and the stream or the last error. */
  datatype Acquisition = Acquisition(requested: seq<Constraint>, result: Result<Stream>)

  /**
   Without the API nothing is requested. Otherwise the back camera is asked
   first, any camera is asked second exactly when the back camera failed,
   and the outcome is that of the last request made.
   */
  function Acquire(d: Devices): (a: Acquisition)
    ensures |a.requested| <= 2
    ensures a.requested == [] <==> !d.apiAvailable
    ensures a.requested == [] ==> a.result == Err(PlainError(NotSupportedMessage))
    ensures a.requested != [] ==> a.requested[0] == EnvironmentFacing
    ensures AnyCamera in a.requested <==> d.apiAvailable && d.environment.Err?
    ensures a.requested != [] ==>
      a.result == (if a.requested[|a.requested| - 1] == AnyCamera then d.anyCamera else d.environment)
  {
    if !d.apiAvailable then Acquisition([], Err(PlainError(NotSupportedMessage)))
    else if d.environment.Ok? then Acquisition([EnvironmentFacing], d.environment)
    else Acquisition([EnvironmentFacing, AnyCamera], d.anyCamera)
  }

  datatype Started = Started(next: CameraState, requested: seq<Constraint>)

  /**
   `startCamera`. At most two requests are made, the second only after the
   first failed; the error of the first is dropped. Initialisation always
   ends; on success the stream is set and no error is shown; on failure the
   stream is left as it was and the classified message is shown.
   */
  function StartCamera(s: CameraState, d: Devices): (r: Started)
    ensures !r.next.isInitializing
    ensures |r.requested| <= 2
    ensures AnyCamera in r.requested <==> d.apiAvailable && d.environment.Err?
    ensures r.requested != [] ==> r.requested[0] == EnvironmentFacing
    ensures r.next.error.None? <==> Acquire(d).result.Ok?
    ensures Acquire(d).result.Ok? ==> r.next.stream == Some(Acquire(d).result.value) && r.next.error.None?
    ensures Acquire(d).result.Err? ==>
      && r.next.stream == s.stream
      && r.next.error == Some(ClassifyError(Acquire(d).result.error))
  {
    var a := Acquire(d);
    var entry := s.(isInitializing := true, error := None);
    match a.result
    case Ok(st) => Started(entry.(stream := Some(st), isInitializing := false), a.requested)
    case Err(e) => Started(entry.(error := Some(ClassifyError(e)), isInitializing := false), a.requested)
  }

  /** When `getUserMedia` is missing, nothing is requested and the browser is reported as unsupported. */
  lemma UnsupportedBrowser(s: CameraState, d: Devices)
    requires !d.apiAvailable
    ensures StartCamera(s, d).requested == []
    ensures StartCamera(s, d).next.error == Some(NotSupportedMessage)
  {
    var e := Acquire(d).result.error;
    NotPermissionWording(e.message);
  }

  /** The unsupported-browser message does not contain the permission wording. */
  lemma NotPermissionWording(msg: string)
    requires msg == NotSupportedMessage
    ensures !JsText.Includes(msg, "Permission dismissed")
  {
    NoCapitalPe(msg);
    assert "Permission dismissed"[..2] == "Pe";
    JsText.NotIncludedWithoutPrefix(msg, "Permission dismissed", 2);
  }

  /** Its only capital `P` is followed by `I`, so it never contains `Pe`. */
  lemma NoCapitalPe(msg: string)
    requires msg == NotSupportedMessage
    ensures forall i: nat :: !JsText.OccursAt(msg, "Pe", i)
  {
    var a, c := "Camera A", " not supported in this browser.";
    assert msg == a + "PI" + c;
    assert 'P' !in a && 'P' !in c;
    OnlyPairAt(a, c, msg);
  }

  /** In `a + "PI" + c`, with no `P` in `a` or `c`, no `P` is followed by `e`. */
  lemma OnlyPairAt(a: string, c: string, msg: string)
    requires msg == a + "PI" + c && 'P' !in a && 'P' !in c
    ensures forall i: nat :: !JsText.OccursAt(msg, "Pe", i)
  {
    forall i: nat ensures !JsText.OccursAt(msg, "Pe", i) {
      if i + 2 <= |msg| {
        if i < |a| {
          assert msg[i] == a[i];
        } else if i == |a| {
          assert msg[i + 1] == 'I';
        } else if i == |a| + 1 {
          assert msg[i] == 'I';
        } else {
          assert msg[i] == c[i - |a| - 2];
        }
        assert msg[i..i + 2][0] == msg[i] && msg[i..i + 2][1] == msg[i + 1];
      }
    }
  }

  /** A back camera that works is used directly: one request, no fallback. */
  lemma BackCameraFirst(s: CameraState, st: Stream, any: Result<Stream>)
    ensures StartCamera(s, Devices(true, Ok(st), any)) == Started(CameraState(Some(st), None, false), [EnvironmentFacing])
  {
  }

  /** A refused back camera falls back to any camera, and a working one is used without an error. */
  lemma FallbackRecovers(s: CameraState, e: JsError, st: Stream)
    ensures StartCamera(s, Devices(true, Err(e), Ok(st))) == Started(CameraState(Some(st), None, false), [EnvironmentFacing, AnyCamera])
  {
  }

  /** `stopStream`: every track of the stream is stopped and the stream is cleared; without a stream nothing happens. */
  datatype Stopped = Stopped(next: CameraState, stoppedTracks: seq<nat>)

  function StopStream(s: CameraState): (r: Stopped)
    ensures r.next.stream.None?
    ensures s.stream.Some? ==> r.stoppedTracks == s.stream.value.tracks
    ensures s.stream.None? ==> r == Stopped(s, [])
    ensures r.next.error == s.error && r.next.isInitializing == s.isInitializing
  {
    match s.stream
    case Some(st) => Stopped(s.(stream := None), st.tracks)
    case None => Stopped(s, [])
  }

  lemma StopStreamIdempotent(s: CameraState)
    ensures StopStream(StopStream(s).next) == Stopped(StopStream(s).next, [])
  {
  }

  // ---------------------------------------------------------------------
  // Unmount
  // ---------------------------------------------------------------------

  /**
   The unmount cleanup as written: the effect runs once, so its cleanup
   calls the `stopStream` of the first render, whose `stream` is the
   mount-time value, not the current one.
   */
  function UnmountAsWritten(current: CameraState): (r: Stopped)
    ensures r.stoppedTracks == []
    ensures current.stream.Some? && current.stream.value.tracks != [] ==>
      r.stoppedTracks != current.stream.value.tracks
  {
    StopStream(Mount())
  }

  /** A camera opened at mount is never released by the cleanup as written. */
  lemma UnmountLeavesCameraOn(st: Stream)
    requires st.tracks != []
    ensures var started := StartCamera(Mount(), Devices(true, Ok(st), Ok(st))).next;
      && started.stream == Some(st)
      && UnmountAsWritten(started).stoppedTracks == []
  {
  }

  /** The intended cleanup: stop the stream the component holds when it unmounts. */
  function Unmount(current: CameraState): (r: Stopped)
    ensures r.next.stream.None?
    ensures current.stream.Some? ==> r.stoppedTracks == current.stream.value.tracks
  {
    StopStream(current)
  }

  /** With the intended cleanup, every track opened by `startCamera` is stopped on unmount. */
  lemma UnmountReleasesCamera(s: CameraState, d: Devices)
    requires Acquire(d).result.Ok?
    ensures Unmount(StartCamera(s, d).next).stoppedTracks == Acquire(d).result.value.tracks
  {
  }
}

=== FILE: gemini.dfy ===
/**
 The diagnosis request of geminiService.ts (`diagnosePlant`): the key
 guard, the language choice, the image payload taken from a data URL,
 the projection of grounding sources, and the mapping of errors to
 user-facing messages.

 The remote call and `JSON.parse` are inputs: `generated` is what
 `generateContent` returned or threw, and `parse` stands for `JSON.parse`
 of the response text.
 */
module Gemini {
  import opened Outcomes
  import opened Types
  import JsText

  const DiagnosisModel: string := "gemini-3-flash-preview"

  const MissingKeyMessage: string :=
    "Missing Gemini API Key. Please ensure API_KEY is set in your environment variables and redeploy."
  const EmptyResponseMessage: string := "No diagnosis received from AI"
  const InvalidKeyMessage: string :=
    "Invalid or missing API Key. Please check your Vercel environment variables."
  const ClearerPhotoMessage: string :=
    "Failed to process the image. Please try again with a clearer photo."

  /** The `lang` parameter's default. */
  const DefaultLang: Lang := En

  /** One grounding chunk of the response; only its `web` member is read. */
  datatype GroundingChunk = GroundingChunk(web: Option<GroundingSource>)

  /** What `generateContent` returned: the text and the first candidate's grounding chunks. */
  datatype Response = Response(text: string, groundingChunks: Option<seq<GroundingChunk>>)

  /** The image part and the prompt sent to the model. */
  datatype Request = Request(model: string, prompt: string, mimeType: string, data: string)

  /** The request built (if any) and the outcome. */
  datatype Call = Call(request: Option<Request>, result: Result<DiagnosisResult>)

  /** `base64Image.split(',')[1] || base64Image`. */
  function ImagePayload(image: string): string {
    var fields := JsText.Split(image, ',');
    if |fields| > 1 && fields[1] != [] then fields[1] else image
  }

  /** A data URL `header,payload` yields its payload. */
  lemma ImagePayloadOfDataUrl(header: string, payload: string)
    requires ',' !in header && ',' !in payload && payload != []
    ensures ImagePayload(header + "," + payload) == payload
  {
    JsText.SplitJoin([header, payload], ',');
    assert JsText.Join([header, payload], [',']) == header + "," + payload;
  }

  /** Text without a comma is sent unchanged. */
  lemma ImagePayloadWithoutComma(image: string)
    requires ',' !in image
    ensures ImagePayload(image) == image
  {
  }

  /** The payload is either the whole input or a comma-free piece of it. */
  lemma ImagePayloadShape(image: string)
    ensures ImagePayload(image) == image || (',' !in ImagePayload(image) && ImagePayload(image) != [])
  {
  }

  const PromptHead: string := "Perform a precise plant diagnosis in "
  const PromptMiddle: string :=
    ". Use Google Search grounding to find EXACT agricultural products from global leaders like Bayer, Syngenta, BASF, and Corteva that are approved for this specific condition in 2024-2025. IMPORTANT: All text in the JSON response must be in "

  function Prompt(lang: Lang): string {
    PromptHead + LangName(lang) + PromptMiddle + LangName(lang) + "."
  }

  function BuildRequest(image: string, lang: Lang): Request {
    Request(DiagnosisModel, Prompt(lang), "image/jpeg", ImagePayload(image))
  }

  /** `chunks.map(c => c.web).filter(Boolean).map(w => ({uri, title}))`. */
  function Sources(chunks: seq<GroundingChunk>): (r: seq<GroundingSource>)
    ensures |r| <= |chunks|
    decreases |chunks|
  {
    if chunks == [] then []
    else
      (match chunks[0].web case Some(w) => [GroundingSource(w.uri, w.title)] case None => [])
      + Sources(chunks[1..])
  }

  /** The projection distributes over concatenation, so it keeps the chunks' order. */
  lemma {:induction false} SourcesAppend(a: seq<GroundingChunk>, b: seq<GroundingChunk>)
    ensures Sources(a + b) == Sources(a) + Sources(b)
    decreases |a|
  {
    if a == [] {
      assert a + b == b;
    } else {
      assert (a + b)[0] == a[0];
      assert (a + b)[1..] == a[1..] + b;
      SourcesAppend(a[1..], b);
    }
  }

  /** Chunks without `web` contribute nothing. */
  function WebCount(chunks: seq<GroundingChunk>): nat
    decreases |chunks|
  {
    if chunks == [] then 0 else (if chunks[0].web.Some? then 1 else 0) + WebCount(chunks[1..])
  }

  /** There is exactly one source per chunk with a `web` member, and every source is one of those members. */
  lemma {:induction false} SourcesExactlyWeb(chunks: seq<GroundingChunk>)
    ensures |Sources(chunks)| == WebCount(chunks)
    ensures forall s :: s in Sources(chunks) ==> exists i :: 0 <= i < |chunks| && chunks[i].web == Some(s)
    decreases |chunks|
  {
    if chunks != [] {
      SourcesExactlyWeb(chunks[1..]);
      forall s | s in Sources(chunks) ensures exists i :: 0 <= i < |chunks| && chunks[i].web == Some(s) {
        if s in Sources(chunks[1..]) {
          var i :| 0 <= i < |chunks[1..]| && chunks[1..][i].web == Some(s);
          assert chunks[i + 1].web == Some(s);
        } else {
          assert chunks[0].web == Some(s);
        }
      }
    }
  }

  /** The `catch` of `diagnosePlant`: a key problem gets its own message, everything else keeps its message or the default. */
  function RemapError(e: JsError): (r: JsError)
    ensures r.name == "Error" && r.message != []
    ensures JsText.Includes(e.message, "API key") ==> r.message == InvalidKeyMessage
    ensures !JsText.Includes(e.message, "API key") && e.message != [] ==> r.message == e.message
    ensures !JsText.Includes(e.message, "API key") && e.message == [] ==> r.message == ClearerPhotoMessage
  {
    if JsText.Includes(e.message, "API key") then PlainError(InvalidKeyMessage)
    else PlainError(OrElse(e.message, ClearerPhotoMessage))
  }

  /** The body of the `try`: empty text, the parse and the grounding sources. */
  function Interpret(generated: Result<Response>, parse: string -> Result<DiagnosisResult>): (r: Result<DiagnosisResult>)
    ensures generated.Err? ==> r == Err(generated.error)
    ensures generated.Ok? && generated.value.text == [] ==> r == Err(PlainError(EmptyResponseMessage))
    ensures generated.Ok? && generated.value.text != [] && parse(generated.value.text).Err? ==>
      r == Err(parse(generated.value.text).error)
    ensures r.Ok? <==> generated.Ok? && generated.value.text != [] && parse(generated.value.text).Ok?
    ensures r.Ok? ==>
      && generated.Ok? && generated.value.text != []
      && parse(generated.value.text).Ok?
      && var d := parse(generated.value.text).value;
         (generated.value.groundingChunks.Some? ==>
            r.value == d.(sources := Some(Sources(generated.value.groundingChunks.value))))
         && (generated.value.groundingChunks.None? ==> r.value == d)
  {
    match generated
    case Err(e) => Err(e)
    case Ok(resp) =>
      if resp.text == [] then Err(PlainError(EmptyResponseMessage))
      else
        match parse(resp.text)
        case Err(e) => Err(e)
        case Ok(d) =>
          match resp.groundingChunks
          case Some(chunks) => Ok(d.(sources := Some(Sources(chunks))))
          case None => Ok(d)
  }

  /** The empty-response error keeps its own message through the remapping. */
  lemma EmptyResponseNotKeyError()
    ensures RemapError(PlainError(EmptyResponseMessage)) == PlainError(EmptyResponseMessage)
  {
    assert 'k' in "API key" && 'k' !in EmptyResponseMessage;
    JsText.NotIncludedWithoutChar(EmptyResponseMessage, "API key", 'k');
  }

  /**
   `diagnosePlant`. A falsy key throws before the request is built and is
   not remapped; a key of white space is accepted here. Every error inside
   the `try` is remapped.
   */
  function DiagnosePlant(apiKey: Option<string>, image: string, lang: Lang,
                         generated: Result<Response>, parse: string -> Result<DiagnosisResult>): (c: Call)
    ensures apiKey.None? || apiKey == Some([]) ==>
      c == Call(None, Err(PlainError(MissingKeyMessage)))
    ensures apiKey.Some? && apiKey.value != [] ==>
      && c.request == Some(BuildRequest(image, lang))
      && (c.result.Err? ==> c.result.error.message != [])
    ensures c.result.Ok? ==>
      && generated.Ok? && generated.value.text != []
      && parse(generated.value.text).Ok?
      && var d := parse(generated.value.text).value;
         (generated.value.groundingChunks.Some? ==>
            c.result.value == d.(sources := Some(Sources(generated.value.groundingChunks.value))))
         && (generated.value.groundingChunks.None? ==> c.result.value == d)
    ensures apiKey.Some? && apiKey.value != [] && generated.Ok? && generated.value.text == [] ==>
      c.result == Err(PlainError(EmptyResponseMessage))
    ensures apiKey.Some? && apiKey.value != [] && generated.Err? ==>
      c.result == Err(RemapError(generated.error))
    ensures apiKey.Some? && apiKey.value != [] && generated.Ok? && generated.value.text != [] ==>
      && (parse(generated.value.text).Ok? ==> c.result.Ok?)
      && (parse(generated.value.text).Err? ==> c.result == Err(RemapError(parse(generated.value.text).error)))
  {
    if apiKey.None? || apiKey.value == [] then Call(None, Err(PlainError(MissingKeyMessage)))
    else
      var request := BuildRequest(image, lang);
      var outcome := Interpret(generated, parse);
      if outcome.Ok? then Call(Some(request), outcome)
      else
        EmptyResponseNotKeyError();
        Call(Some(request), Err(RemapError(outcome.error)))
  }

  /**
   The target language is Hindi exactly when `lang` is `hi` and English
   otherwise, and the default language gives English; the prompt names it
   right after its fixed opening.
   */
  lemma TargetLanguage(lang: Lang)
    ensures LangName(lang) == "Hindi" <==> lang == Hi
    ensures LangName(lang) == "English" <==> lang == En
    ensures LangName(DefaultLang) == "English"
    ensures Prompt(lang)[|PromptHead|..|PromptHead| + |LangName(lang)|] == LangName(lang)
  {
  }

  /** Unlike the live assistant, a key of white space passes this guard and a request is built. */
  lemma WhitespaceKeyAccepted(image: string, lang: Lang, generated: Result<Response>, parse: string -> Result<DiagnosisResult>)
    ensures DiagnosePlant(Some(" "), image, lang, generated, parse).request.Some?
  {
  }
}

=== FILE: jstext.dfy ===
/**
 The few ECMAScript string operations the modelled code relies on:
 `String.prototype.trim`, `String.prototype.includes`,
 `String.prototype.split` with a one-character separator and
 `Array.prototype.join`.
 */
module JsText {

  /**
   The code points `trim` removes: WhiteSpace and LineTerminator of
   ECMA-262 (tab, vertical tab, form feed, space, no-break space,
   zero-width no-break space, the Unicode space separators, and the four
   line terminators).
   */
  predicate IsTrimmable(c: char) {
    || c == '\t' || c == '\n' || c == '\U{000B}' || c == '\U{000C}' || c == '\r'
    || c == ' ' || c == '\U{00A0}' || c == '\U{1680}'
    || ('\U{2000}' <= c <= '\U{200A}')
    || c == '\U{2028}' || c == '\U{2029}' || c == '\U{202F}' || c == '\U{205F}'
    || c == '\U{3000}' || c == '\U{FEFF}'
  }

  /** Every code point of `s` is one that `trim` removes. */
  predicate IsBlank(s: string) {
    forall i :: 0 <= i < |s| ==> IsTrimmable(s[i])
  }

  function TrimStart(s: string): (r: string)
    ensures |r| <= |s| && r == s[|s| - |r|..]
    ensures r != [] ==> !IsTrimmable(r[0])
    ensures IsBlank(s[..|s| - |r|])
  {
    if s != [] && IsTrimmable(s[0]) then
      var r := TrimStart(s[1..]);
      assert s[1..][..|s[1..]| - |r|] == s[1..|s| - |r|];
      r
    else s
  }

  function TrimEnd(s: string): (r: string)
    ensures |r| <= |s| && r == s[..|r|]
    ensures r != [] ==> !IsTrimmable(r[|r| - 1])
    ensures IsBlank(s[|r|..])
  {
    if s != [] && IsTrimmable(s[|s| - 1]) then
      var r := TrimEnd(s[..|s| - 1]);
      assert s[..|s| - 1][..|r|] == s[..|r|];
      assert s[|r|..] == s[..|s| - 1][|r|..] + [s[|s| - 1]];
      r
    else s
  }

  /** `s.trim()`: leading and trailing trimmable code points removed. */
  function Trim(s: string): string {
    TrimEnd(TrimStart(s))
  }

  /** `s.trim() === ''` holds exactly when every code point of `s` is trimmable. */
  lemma TrimEmptyIffBlank(s: string)
    ensures Trim(s) == [] <==> IsBlank(s)
  {
    var a := TrimStart(s);
    if Trim(s) == [] {
      assert a[0..] == a;
      assert a == [];
      assert s[..|s|] == s;
    } else {
      var r := Trim(s);
      assert r == a[..|r|] && r[|r| - 1] == a[|r| - 1];
      assert a[|r| - 1] == s[|s| - |a| + |r| - 1];
    }
  }

  /** `sub` occurs in `s` starting at index `i`. */
  predicate OccursAt(s: string, sub: string, i: nat) {
    i + |sub| <= |s| && s[i..i + |sub|] == sub
  }

  /** An occurrence past the first character is an occurrence in the rest, one position earlier. */
  lemma OccursShift(s: string, sub: string, i: nat)
    requires s != []
    ensures OccursAt(s, sub, i + 1) <==> OccursAt(s[1..], sub, i)
  {
    if i + 1 + |sub| <= |s| {
      assert s[i + 1..i + 1 + |sub|] == s[1..][i..i + |sub|];
    }
  }

  /** `s.includes(sub)`: `sub` occurs in `s` at some position. */
  function Includes(s: string, sub: string): (b: bool)
    ensures b <==> exists i: nat :: OccursAt(s, sub, i)
    decreases |s|
  {
    if sub <= s then
      assert OccursAt(s, sub, 0);
      true
    else if |s| <= |sub| then
      assert s[0..|s|] == s;
      false
    else
      var b := Includes(s[1..], sub);
      assert forall i: nat :: OccursAt(s, sub, i + 1) <==> OccursAt(s[1..], sub, i) by {
        forall i: nat ensures OccursAt(s, sub, i + 1) <==> OccursAt(s[1..], sub, i) {
          OccursShift(s, sub, i);
        }
      }
      assert !OccursAt(s, sub, 0);
      assert forall i: nat :: OccursAt(s, sub, i) ==> i == 0 || OccursAt(s[1..], sub, i - 1);
      b
  }

  /** A string lacking one of the characters of `sub` does not include `sub`. */
  lemma NotIncludedWithoutChar(s: string, sub: string, c: char)
    requires c in sub && c !in s
    ensures !Includes(s, sub)
  {
    var j :| 0 <= j < |sub| && sub[j] == c;
    forall i: nat ensures !OccursAt(s, sub, i) {
      if i + |sub| <= |s| {
        assert s[i + j] in s;
        assert s[i..i + |sub|][j] == s[i + j];
      }
    }
  }

  /** A text that lacks a prefix of `sub` lacks `sub` too. */
  lemma NotIncludedWithoutPrefix(s: string, sub: string, n: nat)
    requires n <= |sub| && !Includes(s, sub[..n])
    ensures !Includes(s, sub)
  {
    forall i: nat ensures !OccursAt(s, sub, i) {
      if OccursAt(s, sub, i) {
        assert s[i..i + n] == s[i..i + |sub|][..n];
        assert OccursAt(s, sub[..n], i);
      }
    }
  }

  /** `xs.join(sep)`. */
  function Join(xs: seq<string>, sep: string): string
    decreases |xs|
  {
    if |xs| == 0 then []
    else if |xs| == 1 then xs[0]
    else xs[0] + sep + Join(xs[1..], sep)
  }

  /** An occurrence inside `b` is an occurrence inside `a + b + c`, shifted by `|a|`. */
  lemma OccursInConcat(a: string, b: string, c: string, sub: string, k: nat)
    requires OccursAt(b, sub, k)
    ensures OccursAt(a + b + c, sub, |a| + k)
  {
    assert (a + b + c)[|a| + k..|a| + k + |sub|] == b[k..k + |sub|];
  }

  /** Every element of a join occurs in it. */
  lemma {:induction false} JoinContains(xs: seq<string>, sep: string, i: nat) returns (k: nat)
    requires i < |xs|
    ensures OccursAt(Join(xs, sep), xs[i], k)
    decreases |xs|
  {
    if |xs| == 1 {
      k := 0;
      assert Join(xs, sep)[0..|xs[0]|] == xs[0];
    } else if i == 0 {
      k := 0;
      assert Join(xs, sep) == xs[0] + (sep + Join(xs[1..], sep));
      assert Join(xs, sep)[0..|xs[0]|] == xs[0];
    } else {
      var k' := JoinContains(xs[1..], sep, i - 1);
      OccursInConcat(xs[0] + sep, Join(xs[1..], sep), [], xs[i], k');
      assert xs[0] + sep + Join(xs[1..], sep) + [] == Join(xs, sep);
      k := |xs[0] + sep| + k';
    }
  }

  /** Every element of a join is included in any text that contains the join. */
  lemma IncludesJoined(a: string, xs: seq<string>, sep: string, b: string, i: nat)
    requires i < |xs|
    ensures Includes(a + Join(xs, sep) + b, xs[i])
  {
    var k := JoinContains(xs, sep, i);
    OccursInConcat(a, Join(xs, sep), b, xs[i], k);
  }

  /** The index of the first `c` in `s`, if any. */
  function IndexOf(s: string, c: char): (r: int)
    ensures -1 <= r < |s|
    ensures r == -1 <==> c !in s
    ensures r >= 0 ==> s[r] == c && c !in s[..r]
  {
    if |s| == 0 then -1
    else if s[0] == c then 0
    else
      var k := IndexOf(s[1..], c);
      if k == -1 then -1
      else
        assert s[..k + 1] == [s[0]] + s[1..][..k];
        k + 1
  }

  /** The first occurrence of `c` is the one at `j` when none precedes it. */
  lemma {:induction false} IndexOfFirst(s: string, c: char, j: nat)
    requires j < |s| && s[j] == c
    requires forall i :: 0 <= i < j ==> s[i] != c
    ensures IndexOf(s, c) == j
    decreases j
  {
    if j > 0 {
      IndexOfFirst(s[1..], c, j - 1);
    }
  }

  /** `s.split(c)` for a one-character separator `c`. */
  function Split(s: string, c: char): (fields: seq<string>)
    ensures |fields| >= 1
    ensures forall i :: 0 <= i < |fields| ==> c !in fields[i]
    decreases |s|
  {
    var k := IndexOf(s, c);
    if k == -1 then [s]
    else [s[..k]] + Split(s[k + 1..], c)
  }

  /** Splitting and joining back on the same separator restores the string. */
  lemma {:induction false} JoinSplit(s: string, c: char)
    ensures Join(Split(s, c), [c]) == s
    decreases |s|
  {
    var k := IndexOf(s, c);
    if k != -1 {
      var rest := Split(s[k + 1..], c);
      JoinSplit(s[k + 1..], c);
      assert Split(s, c) == [s[..k]] + rest;
      assert s == s[..k] + [c] + s[k + 1..];
    }
  }

  /** Joining fields that do not contain the separator and splitting again gives the fields back. */
  lemma {:induction false} SplitJoin(xs: seq<string>, c: char)
    requires |xs| >= 1
    requires forall i :: 0 <= i < |xs| ==> c !in xs[i]
    ensures Split(Join(xs, [c]), c) == xs
    decreases |xs|
  {
    if |xs| > 1 {
      var tail := Join(xs[1..], [c]);
      var s := xs[0] + [c] + tail;
      assert Join(xs, [c]) == s;
      assert s[..|xs[0]|] == xs[0];
      assert s[|xs[0]|] == c;
      forall i | 0 <= i < |xs[0]| ensures s[i] != c {
        assert s[i] == xs[0][i];
      }
      IndexOfFirst(s, c, |xs[0]|);
      assert s[|xs[0]| + 1..] == tail;
      SplitJoin(xs[1..], c);
    }
  }
}

=== FILE: outcomes.dfy ===
/**
 Failure-carrying values shared by every part of the model.

 JavaScript signals failure by throwing an `Error` object that carries a
 `name` ("RangeError", "NotAllowedError", ...) and a `message`. The model
 makes every such throw an explicit `Err` value instead.
 */
module Outcomes {

  /** A thrown JavaScript error. An absent (`undefined`) message is modelled as "". */
  datatype JsError = JsError(name: string, message: string)

  /** The plain `new Error(message)` of the source. */
  function PlainError(message: string): JsError {
    JsError("Error", message)
  }

  datatype Option<+T> = None | Some(value: T)

  datatype Result<+T> = Ok(value: T) | Err(error: JsError)

  /**
   JavaScript's `a || b` on strings: the empty string is falsy. The result
   is one of the two operands, and it is empty only when both are.
   */
  function OrElse(s: string, fallback: string): (r: string)
    ensures r == s || r == fallback
    ensures r == [] <==> s == [] && fallback == []
    ensures s != [] ==> r == s
  {
    if s != [] then s else fallback
  }
}

=== FILE: pcm.dfy ===
/**
 The PCM codec of the live-voice bridge (components/LiveAssistant.tsx):
 `createBlob` turns microphone samples into base64 text of 16-bit
 little-endian PCM, and `decodeAudioData` turns received bytes back into
 a multi-channel sample buffer.

 Samples are modelled as exact reals; the Float32 rounding of the
 browser's sample arrays is not modelled. Typed arrays are assumed
 little-endian, as on every platform the browser runs on.
 */
module Pcm {
  import opened Outcomes
  import Base64

  type byte = Base64.byte
  type int16 = x: int | -32768 <= x < 32768

  /** The scale between a sample in [-1, 1) and a 16-bit integer. */
  const Scale: int := 32768

  /** The MIME tag of every outbound chunk. */
  const OutboundMime: string := "audio/pcm;rate=16000"

  /** The sample rates and channel counts `createBuffer` accepts, as Chromium implements them. */
  const MinSampleRate: int := 3000
  const MaxSampleRate: int := 768000
  const MaxChannels: int := 32

  predicate SupportedRate(sampleRate: int) {
    MinSampleRate <= sampleRate <= MaxSampleRate
  }

  // ---------------------------------------------------------------------
  // ECMAScript conversions
  // ---------------------------------------------------------------------

  /** Truncation toward zero (the `truncate` of ECMA-262). */
  function Truncate(x: real): (k: int)
    ensures x >= 0.0 ==> k as real <= x < k as real + 1.0
    ensures x < 0.0 ==> k as real - 1.0 < x <= k as real
  {
    if x >= 0.0 then x.Floor else -((-x).Floor)
  }

  /**
   The modulo-2^16 wrap of ToInt16 (section 7.1.8 of ECMA-262) applied to
   an integer: the unique value of the int16 range congruent to `k`.
   */
  function WrapInt16(k: int): (r: int16)
    ensures (r - k) % 65536 == 0
  {
    var m := k % 65536;
    if m >= 32768 then m - 65536 else m
  }

  /** `int16[i] = x * 32768`: scale, truncate, wrap; nothing is clamped. */
  function SampleToInt16(x: real): int16 {
    WrapInt16(Truncate(x * Scale as real))
  }

  lemma WrapInt16Identity(k: int16)
    ensures WrapInt16(k) == k
  {
  }

  /** A sample of 1.0 wraps around to the most negative value instead of saturating. */
  lemma FullScaleWraps()
    ensures SampleToInt16(1.0) == -32768
  {
  }

  /** A sample of the form k/32768 with k in the int16 range is stored as exactly k. */
  lemma QuantizedSampleExact(k: int16)
    ensures SampleToInt16(k as real / Scale as real) == k
  {
    assert (k as real / Scale as real) * Scale as real == k as real;
    assert Truncate(k as real) == k;
    WrapInt16Identity(k);
  }

  // ---------------------------------------------------------------------
  // Little-endian 16-bit layout
  // ---------------------------------------------------------------------

  function LowByte(v: int16): byte { (v % 65536) % 256 }

  function HighByte(v: int16): byte { (v % 65536) / 256 }

  /** Reading two little-endian bytes through an `Int16Array`. */
  function FromLittleEndian(lo: byte, hi: byte): int16 {
    var u := lo + 256 * hi;
    if u >= 32768 then u - 65536 else u
  }

  lemma LittleEndianRoundTrip(v: int16)
    ensures FromLittleEndian(LowByte(v), HighByte(v)) == v
  {
  }

  /** The bytes of `new Uint8Array(int16.buffer)`. */
  function Int16Bytes(vs: seq<int16>): (b: seq<byte>)
    ensures |b| == 2 * |vs|
    ensures forall i :: 0 <= i < |vs| ==> b[2 * i] == LowByte(vs[i]) && b[2 * i + 1] == HighByte(vs[i])
  {
    seq(2 * |vs|, j requires 0 <= j < 2 * |vs| =>
      if j % 2 == 0 then LowByte(vs[j / 2]) else HighByte(vs[j / 2]))
  }

  /** Element `k` of `new Int16Array(buffer)` over an even number of bytes. */
  function Int16At(b: seq<byte>, k: int): int16
    requires |b| % 2 == 0 && 0 <= k < |b| / 2
  {
    FromLittleEndian(b[2 * k], b[2 * k + 1])
  }

  /** The elements of `new Int16Array(buffer)` over an even number of bytes. */
  function Int16Values(b: seq<byte>): (vs: seq<int16>)
    requires |b| % 2 == 0
    ensures |vs| == |b| / 2
    ensures forall k :: 0 <= k < |vs| ==> vs[k] == Int16At(b, k)
  {
    seq(|b| / 2, k requires 0 <= k < |b| / 2 => Int16At(b, k))
  }

  /** Writing back the bytes read as a little-endian int16 gives the same two bytes. */
  lemma BytePairRoundTrip(lo: byte, hi: byte)
    ensures LowByte(FromLittleEndian(lo, hi)) == lo && HighByte(FromLittleEndian(lo, hi)) == hi
  {
  }

  /** Viewing an even byte string as int16 values and back loses nothing. */
  lemma Int16BytesOfValues(b: seq<byte>)
    requires |b| % 2 == 0
    ensures Int16Bytes(Int16Values(b)) == b
  {
    forall j | 0 <= j < |b| ensures Int16Bytes(Int16Values(b))[j] == b[j] {
      Int16ByteOfValues(b, j);
    }
  }

  /** Byte `j` of the int16 view written back is byte `j` of the original. */
  lemma Int16ByteOfValues(b: seq<byte>, j: int)
    requires |b| % 2 == 0 && 0 <= j < |b|
    ensures Int16Bytes(Int16Values(b))[j] == b[j]
  {
    var vs := Int16Values(b);
    var k := j / 2;
    assert vs[k] == FromLittleEndian(b[2 * k], b[2 * k + 1]);
    BytePairRoundTrip(b[2 * k], b[2 * k + 1]);
    if j % 2 == 0 {
      assert j == 2 * k;
    } else {
      assert j == 2 * k + 1;
    }
  }

  lemma Int16RoundTrip(vs: seq<int16>)
    ensures Int16Values(Int16Bytes(vs)) == vs
  {
    var b := Int16Bytes(vs);
    var ws := Int16Values(b);
    assert |ws| == |vs|;
    forall i | 0 <= i < |vs| ensures ws[i] == vs[i] {
      assert b[2 * i] == LowByte(vs[i]) && b[2 * i + 1] == HighByte(vs[i]);
      assert ws[i] == FromLittleEndian(b[2 * i], b[2 * i + 1]);
      LittleEndianRoundTrip(vs[i]);
    }
  }

  // ---------------------------------------------------------------------
  // createBlob
  // ---------------------------------------------------------------------

  datatype Blob = Blob(data: string, mimeType: string)

  function Quantize(xs: seq<real>): (vs: seq<int16>)
    ensures |vs| == |xs|
    ensures forall i :: 0 <= i < |xs| ==> vs[i] == SampleToInt16(xs[i])
    ensures forall i :: 0 <= i < |xs| ==> (vs[i] - Truncate(xs[i] * Scale as real)) % 65536 == 0
  {
    seq(|xs|, i requires 0 <= i < |xs| => SampleToInt16(xs[i]))
  }

  /** The PCM bytes `createBlob` encodes: two little-endian bytes per sample. */
  function PcmBytes(xs: seq<real>): (b: seq<byte>)
    ensures |b| == 2 * |xs|
    ensures forall i :: 0 <= i < |xs| ==>
      b[2 * i] == LowByte(SampleToInt16(xs[i])) && b[2 * i + 1] == HighByte(SampleToInt16(xs[i]))
  {
    var vs := Quantize(xs);
    var b := Int16Bytes(vs);
    assert forall i :: 0 <= i < |xs| ==> b[2 * i] == LowByte(vs[i]) && b[2 * i + 1] == HighByte(vs[i]);
    b
  }

  /** `createBlob`: base64 of the PCM bytes, tagged as 16 kHz PCM. */
  function CreateBlob(xs: seq<real>): (blob: Blob)
    ensures blob.mimeType == "audio/pcm;rate=16000"
    ensures |blob.data| == 4 * ((2 * |xs| + 2) / 3)
  {
    Blob(Base64.Encode(PcmBytes(xs)), OutboundMime)
  }

  /** The data of a blob decodes back to the PCM bytes of its samples. */
  lemma CreateBlobDecodes(xs: seq<real>)
    ensures Base64.Decode(CreateBlob(xs).data) == Ok(PcmBytes(xs))
  {
    Base64.DecodeEncode(PcmBytes(xs));
  }

  // ---------------------------------------------------------------------
  // decodeAudioData
  // ---------------------------------------------------------------------

  /** A Web Audio `AudioBuffer`: `length` frames per channel at `sampleRate`. */
  datatype AudioBuffer = AudioBuffer(sampleRate: int, length: nat, channels: seq<seq<real>>)
  {
    predicate WellFormed() {
      sampleRate > 0 && forall c :: 0 <= c < |channels| ==> |channels[c]| == length
    }

    /** The `duration` attribute, in seconds. */
    function Duration(): (d: real)
      requires sampleRate > 0
      ensures d >= 0.0
    {
      length as real / sampleRate as real
    }

    /** The duration is the frame count in seconds: `duration * sampleRate == length`. */
    lemma DurationInFrames()
      requires sampleRate > 0
      ensures Duration() * sampleRate as real == length as real
    {
    }
  }

  function OddLength(): JsError {
    JsError("RangeError", "byte length of Int16Array should be a multiple of 2")
  }

  function NotSupported(): JsError {
    JsError("NotSupportedError", "Failed to execute 'createBuffer' on 'BaseAudioContext'")
  }

  /** Frame `i`, channel `c` of `n` interleaved values lies inside them. */
  lemma FrameIndexBound(i: int, c: int, numChannels: int, n: int)
    requires 0 <= c < numChannels && 0 <= i < n / numChannels
    ensures 0 <= i * numChannels + c < n
  {
    var f := n / numChannels;
    assert i * numChannels + c < (i + 1) * numChannels;
    assert (i + 1) * numChannels <= f * numChannels by {
      assert i + 1 <= f;
    }
    assert f * numChannels <= n;
  }

  lemma FramesPositiveIff(n: nat, numChannels: int)
    requires numChannels >= 1
    ensures n / numChannels >= 1 <==> n >= numChannels
  {
  }

  /** The de-interleaved value of frame `i`, channel `c`, scaled back to [-1, 1). */
  function FrameSample(data: seq<byte>, numChannels: int, c: int, i: int): real
    requires |data| % 2 == 0 && 0 <= c < numChannels && 0 <= i < (|data| / 2) / numChannels
  {
    FrameIndexBound(i, c, numChannels, |data| / 2);
    Int16At(data, i * numChannels + c) as real / Scale as real
  }

  function Channel(data: seq<byte>, numChannels: int, c: int): (xs: seq<real>)
    requires |data| % 2 == 0 && 0 <= c < numChannels
    ensures |xs| == (|data| / 2) / numChannels
  {
    seq((|data| / 2) / numChannels, i requires 0 <= i < (|data| / 2) / numChannels => FrameSample(data, numChannels, c, i))
  }

  /**
   `decodeAudioData`: the bytes are viewed as int16 (an odd length is a
   `RangeError`), `frameCount` is the int16 count over the channel count
   (a fractional count is truncated by `createBuffer`, and the writes
   past the end are ignored), and `createBuffer` rejects a channel count
   outside 1..32, zero frames and a sample rate outside 3000..768000 Hz
   with a `NotSupportedError`.
   */
  function DecodeAudioData(data: seq<byte>, sampleRate: int, numChannels: int): (r: Result<AudioBuffer>)
    ensures r.Ok? <==>
      |data| % 2 == 0 && 1 <= numChannels <= MaxChannels && SupportedRate(sampleRate) && |data| / 2 >= numChannels
    ensures |data| % 2 != 0 ==> r == Err(OddLength())
    ensures |data| % 2 == 0 && r.Err? ==> r == Err(NotSupported())
    ensures r.Ok? ==>
      && r.value.WellFormed()
      && r.value.sampleRate == sampleRate
      && |r.value.channels| == numChannels
      && r.value.length == (|data| / 2) / numChannels
  {
    if |data| % 2 != 0 then Err(OddLength())
    else if numChannels < 1 || numChannels > MaxChannels || !SupportedRate(sampleRate) then Err(NotSupported())
    else
      var frames := (|data| / 2) / numChannels;
      FramesPositiveIff(|data| / 2, numChannels);
      if frames == 0 then Err(NotSupported())
      else
        Ok(AudioBuffer(sampleRate, frames,
          seq(numChannels, c requires 0 <= c < numChannels => Channel(data, numChannels, c))))
  }

  /** Frame `i` of channel `c` is the int16 value at `i * numChannels + c`, scaled by 1/32768. */
  lemma DecodedFrames(data: seq<byte>, sampleRate: int, numChannels: int)
    requires DecodeAudioData(data, sampleRate, numChannels).Ok?
    ensures var buf := DecodeAudioData(data, sampleRate, numChannels).value;
      forall c, i :: 0 <= c < numChannels && 0 <= i < buf.length ==>
        buf.channels[c][i] == FrameSample(data, numChannels, c, i)
  {
  }

  /** Every decoded sample lies in [-1, 1). */
  lemma DecodedSamplesInRange(data: seq<byte>, sampleRate: int, numChannels: int)
    requires DecodeAudioData(data, sampleRate, numChannels).Ok?
    ensures var buf := DecodeAudioData(data, sampleRate, numChannels).value;
      forall c, i :: 0 <= c < numChannels && 0 <= i < buf.length ==> -1.0 <= buf.channels[c][i] < 1.0
  {
  }

  /** The samples k/32768 of a chunk of int16 values k. */
  function Dequantize(ks: seq<int16>): (xs: seq<real>)
    ensures |xs| == |ks|
  {
    seq(|ks|, i requires 0 <= i < |ks| => ks[i] as real / Scale as real)
  }

  /** Samples of the form k/32768 quantize back to exactly the k. */
  lemma QuantizeDequantize(ks: seq<int16>)
    ensures Quantize(Dequantize(ks)) == ks
  {
    var xs := Dequantize(ks);
    forall i | 0 <= i < |ks| ensures Quantize(xs)[i] == ks[i] {
      QuantizedSampleExact(ks[i]);
    }
  }

  /** Mono decoding of an even, non-empty byte string: one channel of every int16 value. */
  lemma MonoDecode(b: seq<byte>, sampleRate: int)
    requires |b| % 2 == 0 && |b| >= 2 && SupportedRate(sampleRate)
    ensures DecodeAudioData(b, sampleRate, 1) == Ok(AudioBuffer(sampleRate, |b| / 2, [Channel(b, 1, 0)]))
  {
    var r := DecodeAudioData(b, sampleRate, 1);
    assert r.value.channels == [Channel(b, 1, 0)];
  }

  /** Mono decoding succeeds exactly on an even, non-empty byte string, with one frame per two bytes. */
  lemma MonoDecodeOk(b: seq<byte>, sampleRate: int)
    requires SupportedRate(sampleRate)
    ensures DecodeAudioData(b, sampleRate, 1).Ok? <==> |b| % 2 == 0 && |b| >= 2
    ensures DecodeAudioData(b, sampleRate, 1).Ok? ==>
      |DecodeAudioData(b, sampleRate, 1).value.channels| == 1 && DecodeAudioData(b, sampleRate, 1).value.length == |b| / 2
  {
  }

  /** The single channel of mono data is the int16 values scaled back to [-1, 1). */
  lemma MonoChannel(b: seq<byte>)
    requires |b| % 2 == 0
    ensures Channel(b, 1, 0) == Dequantize(Int16Values(b))
  {
    forall i | 0 <= i < |b| / 2 ensures Channel(b, 1, 0)[i] == Dequantize(Int16Values(b))[i] {
      assert FrameSample(b, 1, 0, i) == Int16At(b, i) as real / Scale as real;
    }
  }

  /**
   PCM round trip: samples that are exact multiples of 1/32768 in [-1, 1)
   come back unchanged from one-channel decoding of their encoding.
   */
  lemma PcmRoundTrip(ks: seq<int16>, sampleRate: int)
    requires |ks| > 0 && SupportedRate(sampleRate)
    ensures DecodeAudioData(PcmBytes(Dequantize(ks)), sampleRate, 1)
         == Ok(AudioBuffer(sampleRate, |ks|, [Dequantize(ks)]))
  {
    var b := PcmBytes(Dequantize(ks));
    QuantizeDequantize(ks);
    assert b == Int16Bytes(ks);
    Int16RoundTrip(ks);
    MonoDecode(b, sampleRate);
    MonoChannel(b);
  }

  /** The outbound chunk, once base64-decoded and decoded as mono PCM, gives the samples back. */
  lemma BlobRoundTrip(ks: seq<int16>, sampleRate: int)
    requires |ks| > 0 && SupportedRate(sampleRate)
    ensures Base64.Decode(CreateBlob(Dequantize(ks)).data).Ok?
    ensures DecodeAudioData(Base64.Decode(CreateBlob(Dequantize(ks)).data).value, sampleRate, 1)
         == Ok(AudioBuffer(sampleRate, |ks|, [Dequantize(ks)]))
  {
    CreateBlobDecodes(Dequantize(ks));
    PcmRoundTrip(ks, sampleRate);
  }
}

=== FILE: playback.dfy ===
/**
 The inbound playback scheduler of the live-voice bridge: the `onmessage`
 handler of components/LiveAssistant.tsx together with the `ended`
 listener it installs on every source.

 The scheduler holds a playback cursor (`nextStartTimeRef`) and the set of
 outstanding sources (`sourcesRef`). The output context's clock
 (`currentTime`, read after a possible `resume`) is an input of every
 message. Each message is one atomic transition; the interleaving that the
 handler's two `await`s allow is not modelled.
 */
module Playback {
  import opened Outcomes
  import Base64
  import Pcm

  /** The sample rate and channel count passed to `decodeAudioData` for inbound audio. */
  const OutputRate: int := 24000
  const OutputChannels: int := 1

  /** One started `AudioBufferSourceNode`: it plays from `start` for `duration` seconds. */
  datatype Source = Source(id: nat, start: real, duration: real) {
    function End(): real { start + duration }
  }

  /** The playback cursor, the outstanding sources by id, and the next fresh id. */
  datatype Scheduler = Scheduler(cursor: real, sources: map<nat, Source>, nextId: nat)

  /** The state at mount: cursor 0 and no sources. */
  function Initial(): Scheduler {
    Scheduler(0.0, map[], 0)
  }

  /**
   A server message reduced to what the handler reads: the base64 audio of
   the first part of the model turn ("" when absent, which is falsy like
   `undefined`) and the `interrupted` flag.
   */
  datatype Message = Message(audio: string, interrupted: bool)

  /**
   The effect of one message: the new state, the source started (if any),
   the ids of the sources stopped, and the error that aborted the handler
   (if any).
   */
  datatype Step = Step(next: Scheduler, started: Option<Source>, stopped: set<nat>, failure: Option<JsError>)

  function Max(a: real, b: real): (m: real)
    ensures m >= a && m >= b && (m == a || m == b)
  {
    if a >= b then a else b
  }

  /** `decodeAudioData(decode(audio), ctx, 24000, 1)`. */
  function DecodeChunk(audio: string): (r: Result<Pcm.AudioBuffer>)
    ensures r.Ok? ==> r.value.WellFormed() && r.value.sampleRate == OutputRate
  {
    match Base64.Decode(audio)
    case Err(e) => Err(e)
    case Ok(bytes) => Pcm.DecodeAudioData(bytes, OutputRate, OutputChannels)
  }

  /**
   A chunk decodes exactly when its base64 is valid and holds a whole,
   non-empty number of 16-bit samples; it is then mono, one frame per sample.
   */
  lemma DecodeChunkOk(audio: string)
    ensures DecodeChunk(audio).Ok? <==>
      && Base64.Decode(audio).Ok?
      && |Base64.Decode(audio).value| % 2 == 0
      && |Base64.Decode(audio).value| >= 2
    ensures DecodeChunk(audio).Ok? ==>
      && |DecodeChunk(audio).value.channels| == 1
      && DecodeChunk(audio).value.length == |Base64.Decode(audio).value| / 2
  {
    if Base64.Decode(audio).Ok? {
      Pcm.MonoDecodeOk(Base64.Decode(audio).value, OutputRate);
    }
  }

  /**
   What the handler made of a message's audio: there was none, it decoded
   to a buffer, or decoding threw.
   */
  datatype Chunk = NoAudio | Decoded(buffer: Pcm.AudioBuffer) | Undecodable(error: JsError)

  /** Buffers handed to the scheduler have a positive sample rate, so their duration is defined. */
  predicate Playable(c: Chunk) {
    c.Decoded? ==> c.buffer.sampleRate > 0
  }

  /** Decoding a message's audio; an empty string is falsy and is not decoded. */
  function ChunkOf(audio: string): (c: Chunk)
    ensures c.NoAudio? <==> audio == []
    ensures c.Decoded? <==> audio != [] && DecodeChunk(audio).Ok?
    ensures c.Decoded? ==> c.buffer == DecodeChunk(audio).value
    ensures Playable(c)
  {
    if audio == [] then NoAudio
    else
      match DecodeChunk(audio)
      case Err(e) => Undecodable(e)
      case Ok(buf) => Decoded(buf)
  }

  /** The interrupt branch: stop every outstanding source, clear the set, reset the cursor. */
  function Interrupt(s: Scheduler, started: Option<Source>): Step {
    Step(Scheduler(0.0, map[], s.nextId), started, s.sources.Keys, None)
  }

  /**
   One scheduling step of the `onmessage` handler, once its chunk is
   decoded. The cursor is raised to the clock before the chunk is decoded,
   so a chunk that fails to decode still moves it; the failure aborts the
   handler, so its interrupt check is skipped. The interrupt check runs
   after the audio branch, so it also stops a chunk started by the same
   message.
   */
  function Schedule(s: Scheduler, c: Chunk, interrupted: bool, clock: real): (r: Step)
    requires Playable(c)
    // a message without audio and without the flag changes nothing
    ensures c.NoAudio? && !interrupted ==> r == Step(s, None, {}, None)
    // a chunk is started exactly when it decoded, and the handler fails exactly when decoding threw
    ensures r.started.Some? <==> c.Decoded?
    ensures r.failure.Some? <==> c.Undecodable?
    ensures c.Undecodable? ==> r.failure == Some(c.error)
    // it starts at the later of the cursor and the clock, never in the past
    ensures c.Decoded? ==>
      && r.started.value.start == Max(s.cursor, clock)
      && r.started.value.start >= clock
      && r.started.value.id == s.nextId
      && r.started.value.duration == c.buffer.Duration()
      && r.started.value.duration >= 0.0
    // without interruption the cursor moves to its end and the source joins the set
    ensures c.Decoded? && !interrupted ==>
      && r.next.cursor == r.started.value.End()
      && r.next.sources == s.sources[s.nextId := r.started.value]
      && r.stopped == {}
    // a failed chunk leaves the cursor raised to the clock and nothing else changed
    ensures c.Undecodable? ==>
      r.next == s.(cursor := Max(s.cursor, clock)) && r.stopped == {} && r.started.None?
    // an interruption stops everything outstanding, including the chunk just started
    ensures interrupted && !c.Undecodable? ==>
      && r.next.sources == map[]
      && r.next.cursor == 0.0
      && r.stopped == s.sources.Keys + (if c.Decoded? then {s.nextId} else {})
    ensures r.next.nextId == s.nextId + (if c.Decoded? then 1 else 0)
  {
    match c
    case NoAudio => if interrupted then Interrupt(s, None) else Step(s, None, {}, None)
    case Undecodable(e) => Step(s.(cursor := Max(s.cursor, clock)), None, {}, Some(e))
    case Decoded(buf) =>
      var src := Source(s.nextId, Max(s.cursor, clock), buf.Duration());
      var s1 := Scheduler(src.End(), s.sources[src.id := src], s.nextId + 1);
      if interrupted then Interrupt(s1, Some(src)) else Step(s1, Some(src), {}, None)
  }

  /** The `onmessage` handler: decode the message's audio, then schedule it. */
  function OnMessage(s: Scheduler, m: Message, clock: real): (r: Step)
    ensures r.started.Some? <==> m.audio != [] && DecodeChunk(m.audio).Ok?
    ensures r.failure.Some? <==> m.audio != [] && DecodeChunk(m.audio).Err?
    ensures r.started.Some? ==> r.started.value.duration == DecodeChunk(m.audio).value.Duration()
    ensures m.audio == [] && !m.interrupted ==> r == Step(s, None, {}, None)
  {
    Schedule(s, ChunkOf(m.audio), m.interrupted, clock)
  }

  /** The `ended` listener of source `id`: it removes that source and nothing else. */
  function OnEnded(s: Scheduler, id: nat): (r: Scheduler)
    ensures r.cursor == s.cursor && r.nextId == s.nextId
    ensures r.sources.Keys == s.sources.Keys - {id}
    ensures forall k :: k in r.sources ==> r.sources[k] == s.sources[k]
  {
    s.(sources := s.sources - {id})
  }

  /**
   The scheduler invariant: every outstanding source is keyed by its id,
   has an id below the next fresh one, a non-negative duration, and ends
   no later than the cursor.
   */
  ghost predicate Valid(s: Scheduler) {
    forall k :: k in s.sources ==>
      && s.sources[k].id == k
      && k < s.nextId
      && s.sources[k].duration >= 0.0
      && s.sources[k].End() <= s.cursor
  }

  lemma InitialValid()
    ensures Valid(Initial())
  {
  }

  lemma SchedulePreservesValid(s: Scheduler, c: Chunk, interrupted: bool, clock: real)
    requires Valid(s) && Playable(c)
    ensures Valid(Schedule(s, c, interrupted, clock).next)
  {
  }

  /** Every message handled keeps the invariant, whatever its audio decodes to. */
  lemma OnMessagePreservesValid(s: Scheduler, m: Message, clock: real)
    requires Valid(s)
    ensures Valid(OnMessage(s, m, clock).next)
  {
    SchedulePreservesValid(s, ChunkOf(m.audio), m.interrupted, clock);
  }

  lemma OnEndedPreservesValid(s: Scheduler, id: nat)
    requires Valid(s)
    ensures Valid(OnEnded(s, id))
  {
  }

  /** A new chunk never overlaps a source still outstanding: it starts after all of them end. */
  lemma StartedAfterOutstanding(s: Scheduler, c: Chunk, interrupted: bool, clock: real)
    requires Valid(s) && Playable(c)
    requires Schedule(s, c, interrupted, clock).started.Some?
    ensures Schedule(s, c, interrupted, clock).started.value.id !in s.sources
    ensures forall k :: k in s.sources ==> s.sources[k].End() <= Schedule(s, c, interrupted, clock).started.value.start
  {
  }

  /**
   Two consecutive chunks without interruption: the second starts at or
   after the end of the first, and exactly at its end when the clock has
   not overtaken it.
   */
  lemma ConsecutiveChunks(s: Scheduler, c1: Chunk, t1: real, c2: Chunk, i2: bool, t2: real)
    requires c1.Decoded? && c2.Decoded? && Playable(c1) && Playable(c2)
    ensures var step := Schedule(s, c1, false, t1);
            var first := step.started.value;
            var second := Schedule(step.next, c2, i2, t2).started.value;
            && second.start >= first.End()
            && (t2 <= first.End() ==> second.start == first.End())
  {
  }

  /** After an interruption the next chunk is scheduled at the clock, not at time zero. */
  lemma ChunkAfterInterrupt(s: Scheduler, c1: Chunk, t1: real, c2: Chunk, i2: bool, t2: real)
    requires !c1.Undecodable? && c2.Decoded? && Playable(c1) && Playable(c2)
    requires t2 >= 0.0
    ensures Schedule(Schedule(s, c1, true, t1).next, c2, i2, t2).started.value.start == t2
  {
  }

  // ---------------------------------------------------------------------
  // Message sequences
  // ---------------------------------------------------------------------

  /** A decoded message together with the output clock when it is handled. */
  datatype Arrival = Arrival(chunk: Chunk, interrupted: bool, clock: real)

  datatype Trace = Trace(final: Scheduler, started: seq<Source>)

  predicate AllPlayable(arrivals: seq<Arrival>) {
    forall i :: 0 <= i < |arrivals| ==> Playable(arrivals[i].chunk)
  }

  /** Handles the arrivals in order, collecting the sources started. */
  function Run(s: Scheduler, arrivals: seq<Arrival>): Trace
    requires AllPlayable(arrivals)
    decreases |arrivals|
  {
    if arrivals == [] then Trace(s, [])
    else
      var step := Schedule(s, arrivals[0].chunk, arrivals[0].interrupted, arrivals[0].clock);
      var rest := Run(step.next, arrivals[1..]);
      Trace(rest.final, (if step.started.Some? then [step.started.value] else []) + rest.started)
  }

  predicate NoInterruption(arrivals: seq<Arrival>) {
    forall i :: 0 <= i < |arrivals| ==> !arrivals[i].interrupted
  }

  /**
   Without interruption, the chunks of a message sequence play in arrival
   order without overlapping: every chunk starts at or after the end of
   each earlier one, none starts before the initial cursor, and the final
   cursor is at or after every end.
   */
  lemma {:induction false} RunInOrder(s: Scheduler, arrivals: seq<Arrival>)
    requires AllPlayable(arrivals) && NoInterruption(arrivals)
    ensures var t := Run(s, arrivals);
      && s.cursor <= t.final.cursor
      && (forall i :: 0 <= i < |t.started| ==> s.cursor <= t.started[i].start && t.started[i].End() <= t.final.cursor)
      && (forall i, j :: 0 <= i < j < |t.started| ==> t.started[i].End() <= t.started[j].start)
    decreases |arrivals|
  {
    if arrivals != [] {
      var step := Schedule(s, arrivals[0].chunk, arrivals[0].interrupted, arrivals[0].clock);
      var tail := arrivals[1..];
      assert AllPlayable(tail) && NoInterruption(tail) by {
        forall i | 0 <= i < |tail| ensures Playable(tail[i].chunk) && !tail[i].interrupted {
          assert tail[i] == arrivals[i + 1];
        }
      }
      RunInOrder(step.next, tail);
      var rest := Run(step.next, tail);
      assert s.cursor <= step.next.cursor;
      if step.started.Some? {
        var t := Run(s, arrivals);
        assert t.started == [step.started.value] + rest.started;
        assert step.started.value.End() == step.next.cursor;
        forall i, j | 0 <= i < j < |t.started| ensures t.started[i].End() <= t.started[j].start {
          if i == 0 {
            assert t.started[j] == rest.started[j - 1];
          } else {
            assert t.started[i] == rest.started[i - 1] && t.started[j] == rest.started[j - 1];
          }
        }
        forall i | 0 <= i < |t.started| ensures s.cursor <= t.started[i].start && t.started[i].End() <= t.final.cursor {
          if i > 0 {
            assert t.started[i] == rest.started[i - 1];
          }
        }
      }
    }
  }
}

=== FILE: session.dfy ===
/**
 The session lifecycle of the live assistant (components/LiveAssistant.tsx):
 `startSession`, the `onopen`, `onmessage` and `onerror` callbacks of the
 live connection, the microphone callback, and `cleanup`.

 The browser objects are reduced to what the component observes of them:
 whether each audio-context ref is set, whether the microphone callback
 has been wired, and the playback scheduler. The microphone outcome and
 the output clock are inputs; the live connection is represented by the
 configuration it is opened with and by the callbacks it fires.
 */
module LiveSession {
  import opened Outcomes
  import opened Types
  import JsText
  import Pcm
  import Playback
  import Base64

  const LiveModel: string := "gemini-2.5-flash-native-audio-preview-09-2025"

  const MissingKeyMessage: string := "API Key is not configured correctly in the environment."
  const StartFailedMessage: string := "Could not start audio session."
  const ConnectionErrorMessage: string := "Expert connection interrupted. Please try again."

  /** The two audio contexts the component owns: 16 kHz input, 24 kHz output. */
  datatype AudioContextKind = InputContext | OutputContext

  datatype Session = Session(
    isConnecting: bool,
    error: Option<string>,
    inputContext: bool,    // `audioContextRef.current !== null`
    outputContext: bool,   // `outputAudioContextRef.current !== null`
    capturing: bool,       // `onopen` has wired the microphone callback to the current input context
    generation: nat,       // how many times `startSession` has created audio contexts
    playback: Playback.Scheduler)

  /** The state at mount. */
  function Mount(): Session {
    Session(true, None, false, false, false, 0, Playback.Initial())
  }

  /** What the overlay shows: the error, or "connecting", or "active". */
  datatype Status = Connecting | Active | Failed(message: string)

  function StatusOf(s: Session): Status {
    if s.error.Some? then Failed(s.error.value)
    else if s.isConnecting then Connecting
    else Active
  }

  // ---------------------------------------------------------------------
  // startSession
  // ---------------------------------------------------------------------

  /** The configuration the live connection is opened with. */
  datatype LiveConfig = LiveConfig(model: string, voiceName: string, systemInstruction: string)

  function VoiceName(lang: Lang): string {
    if lang == Hi then "Kore" else "Zephyr"
  }

  /**
   The system instruction: the fixed expert instruction `base`, the
   preferred language, and the caller's context (`'N/A'` when absent or
   empty).
   */
  function SystemInstruction(base: string, lang: Lang, context: string): string {
    base + " Preferred Language: " + LangName(lang) + ". Context: " + OrElse(context, "N/A") + "."
  }

  function ConfigFor(base: string, lang: Lang, context: string): LiveConfig {
    LiveConfig(LiveModel, VoiceName(lang), SystemInstruction(base, lang, context))
  }

  /**
   The connection speaks with the Kore voice exactly for Hindi, and its
   instruction carries the caller's context verbatim, or `N/A` when the
   context is empty.
   */
  lemma ConfigForLanguage(base: string, lang: Lang, context: string)
    ensures ConfigFor(base, lang, context).model == LiveModel
    ensures ConfigFor(base, lang, context).voiceName == "Kore" <==> lang == Hi
    ensures ConfigFor(base, lang, context).voiceName == "Zephyr" <==> lang == En
    ensures var head := base + " Preferred Language: " + LangName(lang) + ". Context: ";
      && (context != [] ==> ConfigFor(base, lang, context).systemInstruction == head + context + ".")
      && (context == [] ==> ConfigFor(base, lang, context).systemInstruction == head + "N/A.")
  {
  }

  /** The key is absent, empty, or only white space. */
  predicate KeyMissing(apiKey: Option<string>) {
    apiKey.None? || JsText.Trim(apiKey.value) == []
  }

  /** What `startSession` did to the outside world. */
  datatype StartEffects = StartEffects(contextsCreated: bool, microphoneRequested: bool, connect: Option<LiveConfig>)

  datatype Started = Started(session: Session, effects: StartEffects)

  /**
   `startSession`. A missing key throws before anything is acquired. With
   a key both audio contexts are created, then the microphone is
   requested (`microphone` is the error it fails with, if any); a failure
   there is reported as the error's message, and the contexts stay
   assigned. Only after the microphone is granted is the connection opened.
   The new input context has no microphone callback until the new `onopen`
   wires one. Each creation of contexts starts a new generation: the
   connection opened by this call belongs to `r.session.generation`, and
   its callbacks capture the input context of that generation.
   */
  function StartSession(s: Session, apiKey: Option<string>, lang: Lang, context: string, base: string,
                        microphone: Option<JsError>): (r: Started)
    ensures KeyMissing(apiKey) ==>
      && r.effects == StartEffects(false, false, None)
      && StatusOf(r.session) == Failed(MissingKeyMessage)
      && r.session.inputContext == s.inputContext && r.session.outputContext == s.outputContext
    ensures !KeyMissing(apiKey) ==>
      && r.effects.contextsCreated && r.effects.microphoneRequested
      && r.session.inputContext && r.session.outputContext
    ensures !KeyMissing(apiKey) && microphone.Some? ==>
      && r.effects.connect.None?
      && StatusOf(r.session) == Failed(OrElse(microphone.value.message, StartFailedMessage))
    ensures !KeyMissing(apiKey) && microphone.None? ==>
      && r.effects.connect == Some(ConfigFor(base, lang, context))
      && StatusOf(r.session) == Connecting
    ensures !KeyMissing(apiKey) ==> !r.session.capturing && r.session.generation == s.generation + 1
    ensures KeyMissing(apiKey) ==> r.session.capturing == s.capturing && r.session.generation == s.generation
    ensures r.session.playback == s.playback
  {
    if KeyMissing(apiKey) then
      Started(s.(error := Some(OrElse(MissingKeyMessage, StartFailedMessage)), isConnecting := false),
              StartEffects(false, false, None))
    else
      var s1 := s.(isConnecting := true, error := None, inputContext := true, outputContext := true, capturing := false,
                   generation := s.generation + 1);
      match microphone
      case Some(e) =>
        Started(s1.(error := Some(OrElse(e.message, StartFailedMessage)), isConnecting := false),
                StartEffects(true, true, None))
      case None =>
        Started(s1, StartEffects(true, true, Some(ConfigFor(base, lang, context))))
  }

  /** The key check is exactly "blank": a key of white space alone is rejected like a missing one. */
  lemma KeyMissingIffBlank(key: string)
    ensures KeyMissing(Some(key)) <==> JsText.IsBlank(key)
  {
    JsText.TrimEmptyIffBlank(key);
  }

  // ---------------------------------------------------------------------
  // Connection callbacks
  // ---------------------------------------------------------------------

  /**
   `onopen` of the connection opened in generation `gen`: connecting ends,
   and the microphone callback is wired to that generation's input
   context. A connection left over from before a restart wires only its
   own, closed context, so the current one stays unwired.
   */
  function OnOpen(s: Session, gen: nat): (r: Session)
    ensures !r.isConnecting
    ensures r.capturing <==> gen == s.generation || s.capturing
    ensures r == s.(isConnecting := false, capturing := r.capturing)
  {
    s.(isConnecting := false, capturing := s.capturing || gen == s.generation)
  }

  /** `onerror`: a single user-facing message; no retry, and nothing is torn down. */
  function OnError(s: Session): (r: Session)
    ensures StatusOf(r) == Failed(ConnectionErrorMessage)
    ensures r == s.(error := r.error, isConnecting := r.isConnecting)
  {
    s.(error := Some(ConnectionErrorMessage), isConnecting := false)
  }

  /**
   The microphone callback: one frame becomes one outbound blob, sent
   while the callback is wired and the input context has not been closed.
   */
  function OnAudioProcess(s: Session, frame: seq<real>): (sent: Option<Pcm.Blob>)
    ensures sent.Some? <==> s.capturing && s.inputContext
    ensures sent.Some? ==> sent.value.mimeType == "audio/pcm;rate=16000"
    ensures sent.Some? ==> Base64.Decode(sent.value.data) == Ok(Pcm.PcmBytes(frame))
  {
    Pcm.CreateBlobDecodes(frame);
    if s.capturing && s.inputContext then Some(Pcm.CreateBlob(frame)) else None
  }

  /** What a per-frame callback `send` emits over a sequence of frames, in order. */
  function SendAll(send: seq<real> -> Option<Pcm.Blob>, frames: seq<seq<real>>): seq<Pcm.Blob>
    decreases |frames|
  {
    if frames == [] then []
    else
      (match send(frames[0]) case Some(b) => [b] case None => [])
      + SendAll(send, frames[1..])
  }

  /** A callback that emits for every frame emits one blob per frame, in order. */
  lemma {:induction false} SendAllEach(send: seq<real> -> Option<Pcm.Blob>, frames: seq<seq<real>>)
    requires forall x :: send(x).Some?
    ensures |SendAll(send, frames)| == |frames|
    ensures forall i :: 0 <= i < |frames| ==> SendAll(send, frames)[i] == send(frames[i]).value
    decreases |frames|
  {
    if frames != [] {
      var tail := frames[1..];
      SendAllEach(send, tail);
      var rest := SendAll(send, tail);
      var all := SendAll(send, frames);
      assert all == [send(frames[0]).value] + rest;
      forall i | 0 <= i < |frames| ensures all[i] == send(frames[i]).value {
        if i > 0 {
          assert all[i] == rest[i - 1];
          assert tail[i - 1] == frames[i];
        }
      }
    }
  }

  /** The blobs sent for a sequence of microphone frames. */
  function Capture(s: Session, frames: seq<seq<real>>): seq<Pcm.Blob> {
    SendAll(frame => OnAudioProcess(s, frame), frames)
  }

  /**
   While capturing, every frame is sent exactly once, in capture order,
   as its own blob: nothing is buffered, skipped or duplicated.
   */
  lemma CaptureSendsEachFrame(s: Session, frames: seq<seq<real>>)
    requires s.capturing && s.inputContext
    ensures |Capture(s, frames)| == |frames|
    ensures forall i :: 0 <= i < |frames| ==> Capture(s, frames)[i] == Pcm.CreateBlob(frames[i])
  {
    var send := frame => OnAudioProcess(s, frame);
    SendAllEach(send, frames);
  }

  /**
   Once the current connection opens, with its input context still open,
   every microphone frame is sent, in order, as its own blob.
   */
  lemma OpenSendsEveryFrame(s: Session, frames: seq<seq<real>>)
    requires s.inputContext
    ensures |Capture(OnOpen(s, s.generation), frames)| == |frames|
    ensures forall i :: 0 <= i < |frames| ==> Capture(OnOpen(s, s.generation), frames)[i] == Pcm.CreateBlob(frames[i])
  {
    CaptureSendsEachFrame(OnOpen(s, s.generation), frames);
  }

  /** After `onerror` the microphone goes on exactly as before: a wired session keeps sending frames. */
  lemma ErrorKeepsMicrophone(s: Session, frame: seq<real>)
    ensures OnAudioProcess(OnError(s), frame) == OnAudioProcess(s, frame)
  {
  }

  /** The TypeError of reading `state` of a null output context. */
  function NullContext(): JsError {
    JsError("TypeError", "Cannot read properties of null (reading 'state')")
  }

  /** The InvalidAccessError of connecting a node to an analyser of another audio context. */
  function CrossContext(): JsError {
    JsError("InvalidAccessError", "cannot connect to a node of a different audio context")
  }

  /**
   A chunk as the handler of a connection from an earlier generation sees
   it: the buffer source is created on the current output context, but
   connecting it to that connection's own analyser, which belongs to the
   closed context, throws.
   */
  function Detached(c: Playback.Chunk): (d: Playback.Chunk)
    ensures !d.Decoded? && Playback.Playable(d)
    ensures d.NoAudio? <==> c.NoAudio?
    ensures c.Undecodable? ==> d == c
    ensures c.Decoded? ==> d == Playback.Undecodable(CrossContext())
  {
    if c.Decoded? then Playback.Undecodable(CrossContext()) else c
  }

  /**
   `onmessage` of the connection opened in generation `gen`. Once the
   output context ref is cleared, an audio-bearing message throws at its
   first use and changes nothing. Otherwise the current connection's
   message is the scheduler step; a message of an older connection raises
   the cursor but starts nothing (see `StaleMessageStartsNothing`).
   */
  function OnMessage(s: Session, gen: nat, m: Playback.Message, clock: real): (r: (Session, Playback.Step))
    ensures m.audio != [] && !s.outputContext ==>
      r.0 == s && r.1 == Playback.Step(s.playback, None, {}, Some(NullContext()))
    ensures (m.audio == [] || s.outputContext) && gen == s.generation ==>
      r.1 == Playback.OnMessage(s.playback, m, clock)
    ensures r.0 == s.(playback := r.1.next)
    ensures r.1.started.Some? ==> s.outputContext && gen == s.generation
  {
    if m.audio != [] && !s.outputContext then
      (s, Playback.Step(s.playback, None, {}, Some(NullContext())))
    else
      var step := if gen == s.generation then Playback.OnMessage(s.playback, m, clock)
                  else Playback.Schedule(s.playback, Detached(Playback.ChunkOf(m.audio)), m.interrupted, clock);
      (s.(playback := step.next), step)
  }

  /**
   A message from a connection of an earlier generation starts nothing.
   Its audio raises the cursor and aborts the handler, with the decoding
   error or, for audio that decodes, the cross-context error; without
   audio, its interrupt flag still stops the current playback, since the
   source set is shared.
   */
  lemma StaleMessageStartsNothing(s: Session, gen: nat, m: Playback.Message, clock: real)
    requires gen != s.generation
    ensures OnMessage(s, gen, m, clock).1.started.None?
    ensures m.audio != [] && s.outputContext ==>
      && OnMessage(s, gen, m, clock).1.next == s.playback.(cursor := Playback.Max(s.playback.cursor, clock))
      && OnMessage(s, gen, m, clock).1.failure.Some?
    ensures m.audio != [] && s.outputContext && Playback.DecodeChunk(m.audio).Ok? ==>
      OnMessage(s, gen, m, clock).1.failure == Some(CrossContext())
    ensures m.audio == [] ==> OnMessage(s, gen, m, clock).1 == Playback.OnMessage(s.playback, m, clock)
  {
    var c := Playback.ChunkOf(m.audio);
    if m.audio == [] {
      assert Detached(c) == c;
      assert OnMessage(s, gen, m, clock).1 == Playback.Schedule(s.playback, c, m.interrupted, clock);
    } else if s.outputContext {
      assert OnMessage(s, gen, m, clock).1 == Playback.Schedule(s.playback, Detached(c), m.interrupted, clock);
    }
  }

  /** Every message, of any connection, delivered before or after `cleanup`, keeps the scheduler invariant. */
  lemma OnMessagePreservesValid(s: Session, gen: nat, m: Playback.Message, clock: real)
    requires Playback.Valid(s.playback)
    ensures Playback.Valid(OnMessage(s, gen, m, clock).0.playback)
  {
    if m.audio == [] || s.outputContext {
      if gen == s.generation {
        Playback.OnMessagePreservesValid(s.playback, m, clock);
      } else {
        var d := Detached(Playback.ChunkOf(m.audio));
        Playback.SchedulePreservesValid(s.playback, d, m.interrupted, clock);
        assert OnMessage(s, gen, m, clock).1 == Playback.Schedule(s.playback, d, m.interrupted, clock);
      }
    }
  }

  // ---------------------------------------------------------------------
  // cleanup
  // ---------------------------------------------------------------------

  /** What `cleanup` did: the contexts it closed, in order, and the sources it stopped. */
  datatype Teardown = Teardown(next: Session, closed: seq<AudioContextKind>, stopped: set<nat>)

  /**
   `cleanup`: closes each context whose ref is set and clears the ref,
   stops every outstanding source and clears the set. The microphone
   callback hangs on the closed input context, so it is gone too. It
   touches neither the cursor, nor the flags, nor the microphone stream,
   nor the connection.
   */
  function Cleanup(s: Session): (t: Teardown)
    ensures !t.next.inputContext && !t.next.outputContext
    ensures t.next.playback.sources == map[]
    ensures t.stopped == s.playback.sources.Keys
    ensures InputContext in t.closed <==> s.inputContext
    ensures OutputContext in t.closed <==> s.outputContext
    ensures |t.closed| == (if s.inputContext then 1 else 0) + (if s.outputContext then 1 else 0)
    ensures t.next.playback.cursor == s.playback.cursor && t.next.playback.nextId == s.playback.nextId
    ensures !t.next.capturing
    ensures t.next.isConnecting == s.isConnecting && t.next.error == s.error && t.next.generation == s.generation
  {
    var closed := (if s.inputContext then [InputContext] else []) + (if s.outputContext then [OutputContext] else []);
    Teardown(
      s.(inputContext := false, outputContext := false, capturing := false, playback := s.playback.(sources := map[])),
      closed,
      s.playback.sources.Keys)
  }

  /** `cleanup` is idempotent: a second call closes nothing, stops nothing and changes nothing. */
  lemma CleanupIdempotent(s: Session)
    ensures var again := Cleanup(Cleanup(s).next);
      again.next == Cleanup(s).next && again.closed == [] && again.stopped == {}
  {
  }

  /** After `cleanup`, the microphone sends nothing and inbound audio schedules nothing. */
  lemma QuietAfterCleanup(s: Session, frame: seq<real>, gen: nat, m: Playback.Message, clock: real)
    ensures OnAudioProcess(Cleanup(s).next, frame).None?
    ensures OnMessage(Cleanup(s).next, gen, m, clock).1.started.None?
    ensures OnMessage(Cleanup(s).next, gen, m, clock).0.playback.sources == map[]
  {
    var c := Cleanup(s).next;
    if m.audio == [] {
      assert Detached(Playback.ChunkOf(m.audio)) == Playback.ChunkOf(m.audio) == Playback.NoAudio;
      assert OnMessage(c, gen, m, clock).1 == Playback.Schedule(c.playback, Playback.NoAudio, m.interrupted, clock);
    }
  }

  /**
   A restart (cleanup, then `startSession` again) sends no microphone frame
   until the new connection's `onopen` wires the microphone; the `onopen`
   of a connection from before the restart does not.
   */
  lemma RestartSendsNothingBeforeOpen(s: Session, apiKey: Option<string>, lang: Lang, context: string, base: string,
                                      microphone: Option<JsError>, frame: seq<real>, stale: nat)
    requires stale <= s.generation
    ensures var r := StartSession(Cleanup(s).next, apiKey, lang, context, base, microphone);
      && OnAudioProcess(r.session, frame).None?
      && OnAudioProcess(OnOpen(r.session, stale), frame).None?
      && (!KeyMissing(apiKey) ==> OnAudioProcess(OnOpen(r.session, r.session.generation), frame).Some?)
  {
  }

  /**
   Scenario: with no key the session fails at once with the
   configuration message, and no context, microphone or connection is
   requested.
   */
  lemma MissingKeyScenario(lang: Lang, context: string, base: string, microphone: Option<JsError>)
    ensures var r := StartSession(Mount(), None, lang, context, base, microphone);
      && StatusOf(r.session) == Failed(MissingKeyMessage)
      && !r.session.isConnecting
      && r.effects == StartEffects(false, false, None)
  {
  }
}

=== FILE: types.dfy ===
/**
 The records of types.ts, and the interface language shared by the app,
 the diagnosis service and the live assistant.
 */
module Types {
  import opened Outcomes

  /** The two interface languages, `'en' | 'hi'`. */
  datatype Lang = En | Hi

  /** The language code as it appears in text. */
  function LangCode(l: Lang): string {
    match l
    case En => "en"
    case Hi => "hi"
  }

  /** The language name used in prompts and instructions. */
  function LangName(l: Lang): string {
    if l == Hi then "Hindi" else "English"
  }

  datatype ProductKind = Organic | Chemical | Biological

  datatype RecommendedProduct = RecommendedProduct(
    name: string,
    brandName: string,
    brandLogoUrl: Option<string>,
    productImageUrl: Option<string>,
    kind: ProductKind,
    reason: string)

  datatype GroundingSource = GroundingSource(uri: string, title: string)

  datatype DiagnosisResult = DiagnosisResult(
    diseaseName: string,
    isHealthy: bool,
    scientificName: Option<string>,
    confidence: string,
    summary: string,
    symptoms: seq<string>,
    treatmentSteps: seq<string>,
    preventiveMeasures: seq<string>,
    recommendedProducts: seq<RecommendedProduct>,
    sources: Option<seq<GroundingSource>>)

  datatype AppState = AppState(
    image: Option<string>,
    loading: bool,
    result: Option<DiagnosisResult>,
    error: Option<string>)
}
